=== FILE: README.md ===
# AOC23 day 1 and day 2 in Dafny

A model of the two line parsers of the Advent of Code 2023 solutions for
day 1 and day 2, with proofs of what they compute.

- **Day 1, calibration values** (`day1.dfy`, module `Day1`). `parse_line`
  combines the first and last digit characters of a line as
  `10 * first + last`. `parse_with_digits` also counts the number words
  "one" .. "nine". It takes the first token from a forward scan
  (`parse_first`) and the last one from a scan of the reversed line with
  reversed words (`parse_last`). Each scan is modelled as written:
  - `search_forwarad` with its length guard and character loop;
  - the loops over positions and over `DIGITS`;
  - the `usize::MAX` / `i32::MIN` "not found" sentinels and the
    comparison of the digit and word candidates.

  The lemmas relate the scans to a position-based reference, where
  `TokenAt(line, i, v)` means a digit or word of value `v` starts at
  index `i`:
  - `parse_first` returns the value of the token that starts first;
  - `parse_last` returns the value of the token that starts last;
  - both fail exactly when the line has no token.
- **Day 2, cube game records** (`day2.dfy`, module `Day2`). The model
  covers:
  - `Game::from_line`, `Draw::from_input` and `Draw::parse_inner` on
    lines like `Game 4: 1 green, 3 red; 6 blue`;
  - `validate` against the bag of 12 red, 13 green and 14 blue cubes;
  - `minimum` (the colour-wise maximum of the draws) and `power`;
  - `+` on games;
  - the two drivers, as folds over the lines of an input text.

  The parser's partner is a printer (`ShowGame`), and any game with at
  least one draw reads back as itself once printed. The checks are tied
  to a reference
  "fits in the bag" relation: a game is possible iff its minimum draw is,
  and the minimum draw is the least bag, with the least power, that makes
  the game possible.
- **Rust `str` library** (`text.dfy`, module `Text`). These are the pieces
  of the library both days rely on:
  - `parse::<usize>`;
  - `split` (with its join partner);
  - `trim`;
  - `contains`;
  - `chars().rev()`.
- **Option and Result** (`wrappers.dfy`). `Option` and `Result` carry
  `unwrap_or` as `GetOr`. `:-` plays the role of Rust's `?`.
- **Worked examples** (`examples.dfy`). The examples from the unit tests
  of both files are stated about the model.

Strings are `seq<char>` holding one character per byte, so the model
covers ASCII lines, where `len()` and `chars().enumerate()` agree.

`parse_first` and `parse_last` fail when the digit index and the word
index are equal. `Day1.WordNotAtDigit` shows that a word never starts at
a digit, so that branch is taken exactly when the line has neither kind
of token (`Day1.ParseFirstIsFirstToken`, `Day1.ParseLastIsLastToken`).

## Model

| member | source | states |
|---|---|---|
| Text.ParseNat | day2/src/lib.rs:21-26 | `parse::<usize>` succeeds iff the text is a non-empty run of ASCII digits; the value is the numeral's decimal value and is below 10^length |
| Text.ParseShowNat | day2/src/lib.rs:21-26 | reading back the decimal rendering of any number gives that number |
| Text.Split | day2/src/lib.rs:17 | `split` always yields at least one piece; no piece contains the separator, and joining the pieces with it gives back the text |
| Text.SplitJoin | day2/src/lib.rs:30 | splitting separator-free pieces joined by the separator recovers exactly those pieces |
| Text.SplitFirstPiece | day2/src/lib.rs:118-119 | the first piece of a split (`nth(0)`) is the text before the first separator, or all of it |
| Text.SplitLastPiece | day2/src/lib.rs:22-23 | the last piece of a split (`last()`) is the text after the last separator, or all of it |
| Text.FirstPieceIs | day2/src/lib.rs:118-119 | whatever text lies before the first separator (or is all of it) is the first piece of the split |
| Text.LastPieceIs | day2/src/lib.rs:22-23 | whatever text lies after the last separator (or is all of it) is the last piece of the split |
| Text.SplitCount | day2/src/lib.rs:30-33 | a split yields one more piece than the text has separators |
| Text.Trim | day2/src/lib.rs:117 | `trim` leaves a slice of the input with only whitespace outside it, and the slice neither starts nor ends with whitespace |
| Text.TrimPadded | day2/src/lib.rs:117 | trimming a word preceded by one space yields that word |
| Text.ContainsOccurrence | day2/src/lib.rs:103-107 | `contains` holds iff the pattern occurs at some index |
| Text.ReverseTwice | day1/src/lib.rs:74 | reversing a line twice gives the line back |
| Text.ReverseOccurs | day1/src/lib.rs:77-78 | a reversed word occurs at index i of the reversed line iff the word occurs in the line ending i characters before its end |
| Day1.ParseChar | day1/src/lib.rs:12 | parsing one character as `usize` succeeds iff it is an ASCII digit, with that digit's value |
| Day1.ConvertDigit | day1/src/lib.rs:90-104 | `convert_digit` is defined exactly on the nine words and maps the k-th word of `DIGITS` to k+1 |
| Day1.DigitsAreWords | day1/src/lib.rs:5-7 | every entry of `DIGITS` is a number word, and `convert_digit` maps it to its position |
| Day1.MatchFrom | day1/src/lib.rs:126-144 | within bounds, the character loop of `search_forwarad` from a given offset succeeds iff the rest of the term equals the line there |
| Day1.SearchForwardFindsOccurrence | day1/src/lib.rs:122-145 | for a non-empty term, `search_forwarad` holds iff the term occurs in the line at `start` (within bounds) |
| Day1.SearchForwardEmptyTerm | day1/src/lib.rs:122-145 | for the empty term, `search_forwarad` holds only at the very end of the line |
| Day1.SearchReversed | day1/src/lib.rs:74-78 | searching the reversed line for a reversed word at i finds the word occurring at len-i-len(word) of the original line |
| Day1.TermAt | day1/src/lib.rs:64-68 | the inner loop of `index_first_letter` returns a word of `DIGITS` found at i, and returns nothing only when none of them is found there |
| Day1.ReversedTermAt | day1/src/lib.rs:76-79 | the inner loop of `index_last_letter` returns a word whose reversal is found at i of the reversed line, and returns nothing only when there is none |
| Day1.WordsAreDistinctive | day1/src/lib.rs:5-7 | no number word occurs inside another number word, other than itself at offset 0 |
| Day1.WordWithinWord | day1/src/lib.rs:5-7 | a word occurrence lying inside another word occurrence of a line is that same occurrence |
| Day1.WordAtUnique | day1/src/lib.rs:62-71 | at most one number word starts at any index of a line |
| Day1.WordNotAtDigit | day1/src/lib.rs:35-41 | no word starts at a digit, so a digit and a word candidate never share an index |
| Day1.TokenAtUnique | day1/src/lib.rs:30-42 | at most one token, digit or word, starts at any index |
| Day1.ConvertedTermIsWord | day1/src/lib.rs:65-66 | a word of `DIGITS` found by `search_forwarad` converts to a value whose word occurs there |
| Day1.NoTermNoWord | day1/src/lib.rs:64-68 | if no word of `DIGITS` is found at i, then no number word starts at i |
| Day1.IndexFirstDigit | day1/src/lib.rs:106-114 | `index_first_digit` finds nothing iff the line has no digit; otherwise it finds the smallest index holding a digit, with the digit's value |
| Day1.FirstDigitFrom | day1/src/lib.rs:107-113 | the loop from index i returns the first digit at or after i, and nothing iff there is none |
| Day1.IndexLastDigit | day1/src/lib.rs:116-120 | `index_last_digit` finds nothing iff the line has no digit; otherwise it finds the largest index holding a digit, with the digit's value |
| Day1.FirstLetterFromFinds | day1/src/lib.rs:63-70 | the position loop from i returns the first number-word occurrence at or after i, and nothing iff there is none |
| Day1.IndexFirstLetterIsFirstWord | day1/src/lib.rs:62-71 | `index_first_letter` finds nothing iff no number word occurs; otherwise it finds the smallest start index of a word, with that word's value |
| Day1.LastLetterFromFinds | day1/src/lib.rs:75-85 | the loop over reversed positions from i finds the word occurrence ending latest before len-i, and nothing iff there is none |
| Day1.WordEndsHere | day1/src/lib.rs:75-85 | when the backward scan finds a reversed word i characters from the end, it reports a word ending exactly there, which no earlier-ending word passes |
| Day1.NoWordEndsHere | day1/src/lib.rs:75-85 | when the backward scan finds no reversed word i characters from the end, no word ends there |
| Day1.LastLetterStep | day1/src/lib.rs:75-85 | one step of the backward scan keeps the scan's promise: nothing found iff no word ends early enough, else the latest-ending such word |
| Day1.IndexLastLetterIsLastWord | day1/src/lib.rs:73-88 | `index_last_letter` finds nothing iff no number word occurs; otherwise it reports a word's start index p and value, with p + len(word) <= len(line), and no word starts after p or ends after that word |
| Day1.FirstLetterValueBound | day1/src/lib.rs:62-71 | a value found by `index_first_letter` is at most 9 |
| Day1.LastLetterValueBound | day1/src/lib.rs:73-88 | a value found by `index_last_letter` is at most 9 |
| Day1.ParseFirst | day1/src/lib.rs:30-42 | `parse_first` yields a single digit value (at most 9) when it succeeds |
| Day1.ParseFirstIsFirstToken | day1/src/lib.rs:30-42 | `parse_first` fails iff the line has no token; otherwise it yields the value of the token that starts first, and that token fixes the result |
| Day1.FirstOfScans | day1/src/lib.rs:30-42 | comparing the first-digit and first-word results with the `usize::MAX` sentinel fails iff there is no token and otherwise picks the first token |
| Day1.ParseLast | day1/src/lib.rs:44-60 | `parse_last` yields a single digit value (at most 9) when it succeeds |
| Day1.ParseLastIsLastToken | day1/src/lib.rs:44-60 | `parse_last` fails iff the line has no token; otherwise it yields the value of the token that starts last, and that token fixes the result |
| Day1.LastOfScans | day1/src/lib.rs:44-60 | comparing the last-digit and last-word results with the `i32::MIN` sentinel fails iff there is no token and otherwise picks the last token |
| Day1.ParseWithDigits | day1/src/lib.rs:26-28 | a combined value is at most 99 |
| Day1.CombineFirstAndLast | day1/src/lib.rs:26-28 | whatever the two passes yield, if each fails exactly on token-free lines and otherwise returns its end token's value, the combination fails exactly on token-free lines and is 10 * first + last |
| Day1.ParseWithDigitsCombinesTokens | day1/src/lib.rs:26-28 | `parse_with_digits` fails iff the line has no token; otherwise it is 10 * (first token's value) + (last token's value) |
| Day1.ParseWithDigitsOfTokens | day1/src/lib.rs:26-28 | a line whose first token has value f and last token value l gives 10 * f + l |
| Day1.DigitValues | day1/src/lib.rs:10-15 | the collected `digits` are all single digit values |
| Day1.DigitValuesEmpty | day1/src/lib.rs:10-15 | no digit is collected iff the line has no digit character |
| Day1.DigitValuesFirst | day1/src/lib.rs:16 | the first collected digit is the value of the line's first digit character |
| Day1.DigitValuesLast | day1/src/lib.rs:17 | the last collected digit is the value of the line's last digit character |
| Day1.ParseLine | day1/src/lib.rs:9-24 | `parse_line`'s value is at most 99 |
| Day1.ParseLineIsFirstAndLastDigit | day1/src/lib.rs:9-24 | `parse_line` fails iff the line has no digit; otherwise it is 10 * first digit + last digit |
| Day1.ParseLineSingleDigit | day1/src/lib.rs:16-20 | a line whose only digit is d yields 11 * d |
| Day1.WithoutWordsBothParsesAgree | day1/src/lib.rs:9-60 | on a line containing none of the nine words, `parse_with_digits` and `parse_line` agree, failures included |
| Day1.WithoutWordsDigitsAgree | day1/src/lib.rs:9-60 | on a line with digits and no number words, `parse_with_digits` and `parse_line` give the same result |
| Day1.DigitIsFirstToken | day1/src/lib.rs:30-42 | on a line without words, the first digit is the first token |
| Day1.DigitIsLastToken | day1/src/lib.rs:44-60 | on a line without words, the last digit is the last token |
| Day1.SumLines | day1/src/lib.rs:149-153 | the summing loop succeeds iff every line parses |
| Day1.SumLinesBound | day1/src/lib.rs:149-153 | a sum of per-line values, each at most a bound, is at most bound * number of lines |
| Day1.TotalOfLast | day1/src/lib.rs:149-153 | adding the lines' values front to back equals adding all but the last, then the last |
| Day1.SumLinesIsTotal | day1/src/lib.rs:149-153 | when every line parses, the loop's sum is the sum of all lines' values |
| Day1.Driver | day1/src/lib.rs:147-154 | `driver` succeeds iff every line has a digit, and its sum is at most 99 per line |
| Day1.DriverComplete | day1/src/lib.rs:165-172 | `driver_complete` succeeds iff every line has a token, and its sum is at most 99 per line |
| Day2.Draw.With | day2/src/lib.rs:103-108 | setting one colour's count changes that colour only |
| Day2.Draw.Power | day2/src/lib.rs:96-98 | the power is 0 iff some colour is absent |
| Day2.Draw.Valid | day2/src/lib.rs:125-127 | `Draw::validate` holds iff no colour exceeds the bag (12 red, 13 green, 14 blue) |
| Day2.AllValid | day2/src/lib.rs:44-51 | `Game::validate` holds iff every draw validates, and so holds for a game without draws |
| Day2.Raise | day2/src/lib.rs:58-68 | one loop pass of `minimum` keeps each colour at least both inputs, and equal to one of them |
| Day2.MinimumOf | day2/src/lib.rs:53-75 | `minimum` is at least every draw in each colour, and each colour is 0 or equals that colour of some draw |
| Day2.MinimumIsLeast | day2/src/lib.rs:53-75 | a bag holds every draw iff it holds the minimum draw |
| Day2.ValidIffMinimumValid | day2/src/lib.rs:44-75 | a game validates iff its minimum draw validates |
| Day2.PowerMonotone | day2/src/lib.rs:96-98 | a draw within another has at most its power |
| Day2.MinimumPowerIsLeast | day2/src/lib.rs:53-98 | every bag that holds all draws has at least the power of the minimum draw |
| Day2.FoldAdd | day2/src/lib.rs:78-86 | folding `+` from a game adds all ids to its id; with nothing to add the game is unchanged, otherwise its draws are dropped |
| Day2.Reduce | day2/src/lib.rs:143 | `reduce` yields a game iff there is one; its id is the sum of the ids; a single game is returned unchanged, and with two or more games the result has no draws |
| Day2.ParseInner | day2/src/lib.rs:115-123 | `parse_inner` parses the text of the trimmed part before its first space |
| Day2.ShowPartColour | day2/src/lib.rs:103-108 | each written part is routed to its own colour despite the blue > green > red precedence |
| Day2.FromPartsSucceeds | day2/src/lib.rs:102-110 | the loop over parts succeeds iff every part naming a colour has a readable count |
| Day2.FromPartsLastWins | day2/src/lib.rs:102-110 | the count of a colour is read from the last part naming it |
| Day2.FromPartsKeeps | day2/src/lib.rs:102-110 | a colour no part names keeps the count it had |
| Day2.FromInputSucceeds | day2/src/lib.rs:100-113 | `Draw::from_input` succeeds iff every comma-separated part naming a colour has a readable count |
| Day2.FromInputLastWins | day2/src/lib.rs:100-113 | each colour of the draw holds the count of the last part naming it |
| Day2.FromInputUnnamedIsZero | day2/src/lib.rs:100-113 | a colour no part names is 0 |
| Day2.DrawsOf | day2/src/lib.rs:30-33 | the draws loop succeeds iff every piece parses, giving one draw per piece, in order |
| Day2.FromLineHeader | day2/src/lib.rs:17-27 | the id is the last space-separated word before the first colon; a bad id fails the line; without a colon the line parses iff its id does, with no draws |
| Day2.FromLineDraws | day2/src/lib.rs:28-34 | the draws come from the text between the first and second colon, one per `;`-piece in order; a failing draw fails the line |
| Day2.HeaderPieces | day2/src/lib.rs:17-23 | the header `from_line` reads is the text before the first colon, and the id word is its last space-separated word |
| Day2.BodyPiece | day2/src/lib.rs:17-30 | a line with a colon has a second colon-separated piece, the text between the first and the second colon |
| Day2.LinePieces | day2/src/lib.rs:17-30 | on a line with a colon, the header's last word is the id word and the second colon-separated piece is the draws text |
| Day2.FromLineSucceeds | day2/src/lib.rs:15-42 | conversely to the header and draws lemmas: a line with a colon whose id word and every draw piece parse yields exactly the game with that id and those draws |
| Day2.ShowPartParses | day2/src/lib.rs:115-123 | the count of a written part reads back |
| Day2.ShowPartsRead | day2/src/lib.rs:100-123 | each part of a written draw names its colour and has a readable count |
| Day2.ShowDrawParses | day2/src/lib.rs:100-113 | `from_input` reads a written draw back as itself |
| Day2.ShowGameSegments | day2/src/lib.rs:17 | a written record splits at its single colon into the header and the draws text |
| Day2.ShowGameId | day2/src/lib.rs:20-26 | the header of a written record reads back as the game's id |
| Day2.ShowGameDraws | day2/src/lib.rs:28-34 | the draws text of a written record reads back as the game's draws |
| Day2.FromLineShowGame | day2/src/lib.rs:15-42 | `from_line` reads a written game record back as the same game |
| Day2.ValidGames | day2/src/lib.rs:138 | the filter never yields more games than it is given |
| Day2.ValidGamesMembers | day2/src/lib.rs:138 | a game is in the filtered list exactly when it is in the input and validates |
| Day2.ValidGamesCounts | day2/src/lib.rs:138 | the filter keeps each valid game as often as it occurs in the input and drops every invalid one |
| Day2.ValidGamesAppend | day2/src/lib.rs:138 | filtering a concatenation is concatenating the filtered parts, so the kept games stay in order |
| Day2.ValidGamesIdSum | day2/src/lib.rs:138-145 | the ids of the filtered games add up to the ids of the valid games |
| Day2.Driver | day2/src/lib.rs:130-146 | `driver` yields the sum of the ids of the possible games |
| Day2.FoldPowers | day2/src/lib.rs:153-154 | the fold adds the powers of all games' minimum draws to the start value |
| Day2.DriverTwo | day2/src/lib.rs:148-157 | `driver_two` yields the sum of the powers of all games' minimum draws |
| Examples.SearchForwardExamples | day1/src/lib.rs:209-214 | the four `search_forwarad` cases of the search test |
| Examples.SearchForwardAfterTwo | day1/src/lib.rs:235 | "aaone2" holds "one" at 2, the `search_forwarad` case of the first-letter test |
| Examples.IndexFirstDigitExamples | day1/src/lib.rs:224-228 | "ab1" has its first digit 1 at index 2, and "abwthua" has none |
| Examples.IndexLastDigitExamples | day1/src/lib.rs:201-206 | the last digit of "abcone1tht" and "8abcone1tht" is 1, and of "kkone2ee" it is 2 at index 5 |
| Examples.IndexFirstLetterNone | day1/src/lib.rs:232 | "aono" holds no word |
| Examples.IndexFirstLetterAfterOne | day1/src/lib.rs:233 | "aone" gives (1, 1) |
| Examples.IndexFirstLetterAfterTwo | day1/src/lib.rs:234 | "aaone2" gives (2, 1) |
| Examples.IndexLastLetterAtEnd | day1/src/lib.rs:195 | "ttttone" gives value 1 |
| Examples.IndexLastLetterOfThree | day1/src/lib.rs:196 | "ttttonetwothree4" gives value 3 |
| Examples.IndexLastLetterExample | day1/src/lib.rs:197 | "aone" gives (1, 1) |
| Examples.IndexLastLetterAfterWord | day1/src/lib.rs:198 | "kkone2ee" gives (2, 1) |
| Examples.ParseLastDigitLast | day1/src/lib.rs:188-191 | the last token of "kkone2ee" is 2 |
| Examples.ParseFirstWordFirst | day1/src/lib.rs:218 | the first token of "aaone2" is 1 |
| Examples.ParseFirstDigitOnly | day1/src/lib.rs:219 | the first token of "aaoue2" is 2 |
| Examples.ParseFirstDigitFirst | day1/src/lib.rs:220 | the first token of "tht1three4" is 1 |
| Examples.ParseFirstNoToken | day1/src/lib.rs:221 | "abcdef" has no first token |
| Examples.TwoOneNine | day1/src/lib.rs:240 | "two1nine" gives 29 |
| Examples.EightTwoThree | day1/src/lib.rs:241 | "eightwothree" gives 83 |
| Examples.OneTwoThreeInside | day1/src/lib.rs:242 | "abcone2threexyz" gives 13 |
| Examples.OneTwoThreeFirst | day1/src/lib.rs:242 | "one" is the first token of "abcone2threexyz" |
| Examples.OneTwoThreeLast | day1/src/lib.rs:242 | "three" is the last token of "abcone2threexyz" |
| Examples.TwoOneFour | day1/src/lib.rs:243 | "xtwone3four" gives 24 |
| Examples.DigitsAroundWords | day1/src/lib.rs:244 | "4nineeightseven2" gives 42 |
| Examples.OneEightFour | day1/src/lib.rs:245 | "zoneight234" gives 14 |
| Examples.SevenSix | day1/src/lib.rs:246 | "7pqrstsixteen" gives 76 |
| Examples.NineNine | day1/src/lib.rs:247 | "9hcj6nine" gives 99 |
| Examples.ParseLineDigitsAtEnds | day1/src/lib.rs:255-258 | "1abc2" gives 12 |
| Examples.ParseLineDigitsInside | day1/src/lib.rs:260-263 | "pqr3stu8vwx" gives 38 |
| Examples.MinimumPowerExample | day2/src/lib.rs:162-167 | the first sample game needs 6 blue, 4 red and 2 green cubes, power 48 |
| Examples.GameThreeImpossible | day2/src/lib.rs:206-212 | sample game 3 is impossible |
| Examples.SampleValidity | day2/src/lib.rs:179-195 | of the sample games, exactly 1, 2 and 5 are possible |
| Examples.SampleTailFiltered | day2/src/lib.rs:179-195 | of sample games 3, 4 and 5 only game 5 is kept by the filter |
| Examples.SampleFiltered | day2/src/lib.rs:179-195 | the filter keeps sample games 1, 2 and 5, in that order |
| Examples.SampleSum | day2/src/lib.rs:179-204 | reducing the possible sample games gives a game with id 8 |

## Left out

- File reading in the drivers and in `test_data` is left out: the day 1 drivers take the lines and the day 2 drivers take the file's text. The tests whose results depend on the contents of `input.txt` and `test.txt` are left out for the same reason.
- The `println!` diagnostics in `parse_last` are left out, and so are the `anyhow` error messages: every error is the single `Failure` case.
- Non-ASCII text is not modelled. One character stands for one byte, so `len()` and character positions agree.
- Day1.IndexLastDigit: the `i32` conversion `try_into().unwrap()` is not modelled. It panics only for lines longer than 2^31 characters; the index is an unbounded `int`.
- Day1.IndexLastLetter: same `i32` conversion as `IndexLastDigit`, not modelled for the same reason.
- Day1.ParseFirstIsFirstToken: requires the line to be no longer than `usize::MAX`. Rust strings are bounded by that, and the sentinel comparison depends on it.
- Text.ParseNat: the leading `+` that `usize::from_str` accepts is not modelled, and neither is overflow above `usize::MAX`. Numbers are unbounded.
- Overflow of `usize` in `Game + Game`, in `power` and in the driver sums is not modelled. The arithmetic is on unbounded naturals.
- Day2.Driver: requires some game of the input to be possible. The source unwraps the result of `reduce`, which panics when no game is possible.
- Day2.FromLineShowGame: covers records with at least one draw. Every record has one, and `Game N:` parses as one empty draw.
- The `unwrap_or("0")` calls in `from_line` and `parse_inner` are modelled as unreachable. `split` always yields a first and a last piece.
- `lines()` treats `\r\n` as a line end and the model does not. The drivers are given lines that are already split.
- `Day2.ParseInner`'s use of `char::is_whitespace` follows the Unicode White_Space list as a fixed set of characters.
- Examples.MinimumPowerExample: sample game 1 is a hand-typed transcription of its record line, not the result of parsing it (`test_minimum_example`).
- Examples.GameThreeImpossible: sample game 3 is a hand-typed transcription of its record line, not the result of parsing it (`test_filter`).
- Examples.SampleValidity: the five sample games are hand-typed transcriptions of their record lines, not the result of parsing them (`test_example_complete`).
- Examples.SampleFiltered: works on the hand-typed sample games, not on parsed record lines.
- Examples.SampleTailFiltered: works on the hand-typed sample games, not on parsed record lines.
- Examples.SampleSum: works on the hand-typed sample games, not on parsed record lines (`test_example_complete`). Parsing the record text is covered only by the general lemmas (`Day2.FromLineSucceeds`, `Day2.FromLineHeader`, `Day2.FromLineDraws`) and the printer round trip (`Day2.FromLineShowGame`).
- Two more tests are covered only by `Day2.FromLineHeader`, `Day2.FromLineDraws`, `Day2.FromLineSucceeds` and the round trip, not as literal examples: `test_large_id` (id 10) and `test_parse_line` (3 draws, first blue 3).

=== FILE: day1.dfy ===
/** Day 1: recovering a calibration value from each line of a document.

    A line's calibration value is `10 * first + last`, where `first` and
    `last` are the values of its first and last numeric token.  `ParseLine`
    counts only digit characters as tokens; `ParseWithDigits` also counts
    the nine number words "one" .. "nine", finding the first token with a
    forward scan (`ParseFirst`) and the last one with a scan over the
    reversed line (`ParseLast`).

    Each scan is modelled as the source writes it (loops become recursive
    functions, the "not found" sentinels are the source's own constants);
    the lemmas at the end relate the scans to a position-based reference:
    `TokenAt(line, i, v)` says a token of value `v` starts at index `i`.
 */
module Day1 {
  import opened Wrappers
  import opened Text

  /** The number words, in the order the source tries them (`DIGITS`);
      `Digits[v - 1]` spells `v`. */
  const Digits: seq<string> :=
    ["one", "two", "three", "four", "five", "six", "seven", "eight", "nine"]

  /** `usize::MAX`: the forward scan's index for "no token of this kind". */
  const UsizeMax: nat := 0xffff_ffff_ffff_ffff

  /** `i32::MIN`: the backward scan's index for "no token of this kind". */
  const I32Min: int := -0x8000_0000

  // =====================================================================
  // Reference: where the tokens of a line are
  // =====================================================================

  function WordLen(v: int): nat
    requires 1 <= v <= 9
  {
    |Digits[v - 1]|
  }

  /** The word spelling `v` occurs in `line` starting at index `i`. */
  ghost predicate WordAt(line: string, i: int, v: int) {
    1 <= v <= 9 && OccursAt(line, Digits[v - 1], i)
  }

  /** `line[i]` is a digit character of value `v`. */
  ghost predicate DigitAt(line: string, i: int, v: int) {
    0 <= i < |line| && IsDigit(line[i]) && v == DigitValue(line[i])
  }

  /** A token (digit or number word) of value `v` starts at index `i`. */
  ghost predicate TokenAt(line: string, i: int, v: int) {
    DigitAt(line, i, v) || WordAt(line, i, v)
  }

  ghost predicate IsFirstToken(line: string, i: int, v: int) {
    TokenAt(line, i, v) && forall j, w :: j < i ==> !TokenAt(line, j, w)
  }

  ghost predicate IsLastToken(line: string, i: int, v: int) {
    TokenAt(line, i, v) && forall j, w :: j > i ==> !TokenAt(line, j, w)
  }

  ghost predicate NoDigit(line: string) {
    forall j :: 0 <= j < |line| ==> !IsDigit(line[j])
  }

  ghost predicate FirstDigitAt(line: string, i: int) {
    0 <= i < |line| && IsDigit(line[i]) && forall j :: 0 <= j < i ==> !IsDigit(line[j])
  }

  ghost predicate LastDigitAt(line: string, i: int) {
    0 <= i < |line| && IsDigit(line[i]) && forall j :: i < j < |line| ==> !IsDigit(line[j])
  }

  // =====================================================================
  // The scans, as written in the source
  // =====================================================================

  /** `c.to_string().parse::<usize>()` for a single character. */
  function ParseChar(c: char): (r: Option<nat>)
    ensures r.Some? <==> IsDigit(c)
    ensures r.Some? ==> r.value == DigitValue(c)
  {
    var s := [c];
    assert s[..0] == [];
    match ParseNat(s)
    case Ok(v) => Some(v)
    case Failure => None
  }

  /** `convert_digit`: the value a number word spells. */
  function ConvertDigit(digit: string): (r: Option<nat>)
    ensures r.Some? <==> digit in Digits
    ensures forall k :: 0 <= k < |Digits| && Digits[k] == digit ==> r == Some(k + 1)
  {
    if digit == "one" then Some(1)
    else if digit == "two" then Some(2)
    else if digit == "three" then Some(3)
    else if digit == "four" then Some(4)
    else if digit == "five" then Some(5)
    else if digit == "six" then Some(6)
    else if digit == "seven" then Some(7)
    else if digit == "eight" then Some(8)
    else if digit == "nine" then Some(9)
    else None
  }

  /** `search_forwarad`: after the length guard, walk `line` from `start`
      comparing against `term` character by character. */
  function SearchForward(line: string, start: nat, term: string): bool {
    if |line| < |term| || start + |term| > |line| then false
    else MatchFrom(line, start, term, 0)
  }

  /** The loop of `search_forwarad`, at `index` characters past `start`.
      Running out of `line` counts as a match; running out of `term`
      before the first comparison does not.  Within bounds, the loop
      succeeds iff the rest of the term equals the line at that offset. */
  function MatchFrom(line: string, start: nat, term: string, index: nat): (r: bool)
    ensures start + |term| <= |line| && index < |term| ==>
              (r <==> line[start + index..start + |term|] == term[index..])
    decreases |line| - (start + index)
  {
    if start + index >= |line| then true
    else if index < |term| then
      assert start + |term| <= |line| ==>
        line[start + index..start + |term|] == [line[start + index]] + line[start + index + 1..start + |term|];
      assert term[index..] == [term[index]] + term[index + 1..];
      if term[index] != line[start + index] then false
      else if index + 1 == |term| then true
      else MatchFrom(line, start, term, index + 1)
    else false
  }

  /** The inner `for term in DIGITS` loop of `index_first_letter`: the
      first of `terms` found at `i`. */
  function TermAt(text: string, i: nat, terms: seq<string>): (r: Option<string>)
    ensures r.Some? ==> r.value in terms && SearchForward(text, i, r.value)
    ensures r.None? ==> forall t :: t in terms ==> !SearchForward(text, i, t)
  {
    if |terms| == 0 then None
    else if SearchForward(text, i, terms[0]) then Some(terms[0])
    else TermAt(text, i, terms[1..])
  }

  /** The inner loop of `index_last_letter`: the first of `terms` whose
      reversal is found at `i` of the reversed line. */
  function ReversedTermAt(rev: string, i: nat, terms: seq<string>): (r: Option<string>)
    ensures r.Some? ==> r.value in terms && SearchForward(rev, i, Reverse(r.value))
    ensures r.None? ==> forall t :: t in terms ==> !SearchForward(rev, i, Reverse(t))
  {
    if |terms| == 0 then None
    else if SearchForward(rev, i, Reverse(terms[0])) then Some(terms[0])
    else ReversedTermAt(rev, i, terms[1..])
  }

  /** `index_first_letter`: position and value of the first number word. */
  function IndexFirstLetter(line: string): Option<(nat, nat)> {
    FirstLetterFrom(line, 0)
  }

  function FirstLetterFrom(line: string, i: nat): Option<(nat, nat)>
    requires i <= |line|
    decreases |line| - i
  {
    if i == |line| then None
    else
      match TermAt(line, i, Digits)
      case Some(term) =>
        (match ConvertDigit(term)
         case Some(v) => Some((i, v))
         case None => None)
      case None => FirstLetterFrom(line, i + 1)
  }

  /** `index_last_letter`: scan the reversed line for reversed words; a
      match at reversed index `i` is reported at its start in `line`. */
  function IndexLastLetter(line: string): Option<(int, nat)> {
    LastLetterFrom(line, Reverse(line), 0)
  }

  function LastLetterFrom(line: string, rev: string, i: nat): Option<(int, nat)>
    requires |rev| == |line| && i <= |line|
    decreases |line| - i
  {
    if i == |line| then None
    else
      match ReversedTermAt(rev, i, Digits)
      case Some(term) =>
        (match ConvertDigit(term)
         case Some(v) => Some(((|line| - i) - |term|, v))
         case None => None)
      case None => LastLetterFrom(line, rev, i + 1)
  }

  /** `index_first_digit`: position and value of the first digit. */
  function IndexFirstDigit(line: string): (r: Option<(nat, nat)>)
    ensures r.None? <==> NoDigit(line)
    ensures r.Some? ==> FirstDigitAt(line, r.value.0) && r.value.1 == DigitValue(line[r.value.0])
  {
    FirstDigitFrom(line, 0)
  }

  function FirstDigitFrom(line: string, i: nat): (r: Option<(nat, nat)>)
    requires i <= |line|
    ensures r.None? <==> forall j :: i <= j < |line| ==> !IsDigit(line[j])
    ensures r.Some? ==> i <= r.value.0 < |line| && IsDigit(line[r.value.0])
                        && r.value.1 == DigitValue(line[r.value.0])
                        && forall j :: i <= j < r.value.0 ==> !IsDigit(line[j])
    decreases |line| - i
  {
    if i == |line| then None
    else
      match ParseChar(line[i])
      case Some(v) => Some((i, v))
      case None => FirstDigitFrom(line, i + 1)
  }

  /** `index_last_digit`: the first digit of the reversed line, reported at
      its position in `line`. */
  function IndexLastDigit(line: string): (r: Option<(int, nat)>)
    ensures r.None? <==> NoDigit(line)
    ensures r.Some? ==> LastDigitAt(line, r.value.0) && r.value.1 == DigitValue(line[r.value.0])
  {
    var s := Reverse(line);
    assert forall j :: 0 <= j < |line| ==> line[j] == s[|line| - 1 - j];
    match IndexFirstDigit(s)
    case None => None
    case Some((i, v)) =>
      Some((|line| - (i + 1), v))
  }

  /** `parse_first`: the earlier of the first digit and the first word;
      equal indices (both absent) is a failure. */
  function ParseFirst(line: string): (r: Result<nat>)
    ensures r.Ok? ==> r.value <= 9
  {
    var (dI, dV) := IndexFirstDigit(line).GetOr((UsizeMax, 0));
    var (lI, lV) := IndexFirstLetter(line).GetOr((UsizeMax, 0));
    FirstLetterValueBound(line, 0);
    if dI > lI then Ok(lV)
    else if dI < lI then Ok(dV)
    else Failure
  }

  /** `parse_last`: the later of the last digit and the last word; equal
      indices (both absent) is a failure.  The diagnostics the source
      prints on that path are not modelled. */
  function ParseLast(line: string): (r: Result<nat>)
    ensures r.Ok? ==> r.value <= 9
  {
    var (dI, dV) := IndexLastDigit(line).GetOr((I32Min, 0));
    var (lI, lV) := IndexLastLetter(line).GetOr((I32Min, 0));
    LastLetterValueBound(line, Reverse(line), 0);
    if dI < lI then Ok(lV)
    else if dI > lI then Ok(dV)
    else Failure
  }

  /** `parse_with_digits`: digits and number words both count. */
  function ParseWithDigits(line: string): (r: Result<nat>)
    ensures r.Ok? ==> r.value <= 99
  {
    var first :- ParseFirst(line);
    var last :- ParseLast(line);
    Ok(first * 10 + last)
  }

  /** The values of the digit characters of `line`, in order (the `digits`
      vector of `parse_line`). */
  function DigitValues(line: string): (ds: seq<nat>)
    ensures forall k :: 0 <= k < |ds| ==> ds[k] <= 9
  {
    if |line| == 0 then []
    else
      var head := match ParseChar(line[0]) case Some(v) => [v] case None => [];
      head + DigitValues(line[1..])
  }

  /** `parse_line`: only digit characters count. */
  function ParseLine(line: string): (r: Result<nat>)
    ensures r.Ok? ==> r.value <= 99
  {
    var digits := DigitValues(line);
    if |digits| > 0 then Ok(digits[0] * 10 + digits[|digits| - 1])
    else Failure
  }

  /** The summing loop of `driver` and `driver_complete`, over lines that
      are already read: the first failing line fails the whole sum. */
  function SumLines(lines: seq<string>, parse: string -> Result<nat>): (r: Result<nat>)
    ensures r.Ok? <==> forall k :: 0 <= k < |lines| ==> parse(lines[k]).Ok?
  {
    if |lines| == 0 then Ok(0)
    else
      var sum :- SumLines(lines[..|lines| - 1], parse);
      var value :- parse(lines[|lines| - 1]);
      Ok(sum + value)
  }

  /** `driver`: the calibration sum counting digit characters only. */
  function Driver(lines: seq<string>): (r: Result<nat>)
    ensures r.Ok? <==> forall k :: 0 <= k < |lines| ==> ParseLine(lines[k]).Ok?
    ensures r.Ok? ==> r.value <= 99 * |lines|
  {
    SumLinesBound(lines, ParseLine, 99);
    SumLines(lines, ParseLine)
  }

  /** `driver_complete`: the calibration sum counting number words too. */
  function DriverComplete(lines: seq<string>): (r: Result<nat>)
    ensures r.Ok? <==> forall k :: 0 <= k < |lines| ==> ParseWithDigits(lines[k]).Ok?
    ensures r.Ok? ==> r.value <= 99 * |lines|
  {
    SumLinesBound(lines, ParseWithDigits, 99);
    SumLines(lines, ParseWithDigits)
  }

  // =====================================================================
  // Lemmas
  // =====================================================================

  // ---- search_forwarad ------------------------------------------------

  /** For a non-empty term, `search_forwarad` holds exactly when the term
      occurs at `start`. */
  lemma SearchForwardFindsOccurrence(line: string, start: nat, term: string)
    requires |term| > 0
    ensures SearchForward(line, start, term) <==> OccursAt(line, term, start)
  {
    assert term[0..] == term;
  }

  /** The empty term is only "found" at the very end of the line (never
      reached by the source, whose terms are the nine words). */
  lemma SearchForwardEmptyTerm(line: string, start: nat)
    ensures SearchForward(line, start, "") <==> start == |line|
  {
  }

  /** Searching the reversed line for a reversed term at `i` finds the
      term ending `i` characters before the end of `line`. */
  lemma SearchReversed(line: string, i: nat, term: string)
    requires |term| > 0
    ensures SearchForward(Reverse(line), i, Reverse(term)) <==> OccursAt(line, term, |line| - i - |term|)
  {
    SearchForwardFindsOccurrence(Reverse(line), i, Reverse(term));
    ReverseOccurs(line, i, term);
  }

  // ---- the nine words -------------------------------------------------

  /** One of the nine words, spelled out as a disjunction so that the
      solver can case-split on it. */
  ghost predicate IsWord(t: string) {
    t == "one" || t == "two" || t == "three" || t == "four" || t == "five"
    || t == "six" || t == "seven" || t == "eight" || t == "nine"
  }

  /** No number word occurs inside another, except as itself: the words
      are free of shared prefixes and of embedded words. */
  lemma WordsAreDistinctive()
    ensures forall a, b, o :: IsWord(a) && IsWord(b) && OccursAt(a, b, o) ==> a == b && o == 0
  {
    forall a, b, o | IsWord(a) && IsWord(b) && OccursAt(a, b, o)
      ensures a == b && o == 0
    {
      var slice := a[o..o + |b|];
      assert slice[0] == a[o] && slice[1] == a[o + 1] && slice[2] == a[o + 2];
      assert a[o] == b[0] && a[o + 1] == b[1] && a[o + 2] == b[2];
      assert o == 0 || o == 1 || o == 2;
    }
  }

  lemma DigitsAreWords(v: int)
    requires 1 <= v <= 9
    ensures IsWord(Digits[v - 1]) && ConvertDigit(Digits[v - 1]) == Some(v)
  {
  }

  /** A word occurrence lying within another one is that same occurrence. */
  lemma WordWithinWord(line: string, s: int, v: int, j: int, w: int)
    requires WordAt(line, s, v) && WordAt(line, j, w)
    requires s <= j && j + WordLen(w) <= s + WordLen(v)
    ensures j == s && w == v
  {
    var outer, inner := Digits[v - 1], Digits[w - 1];
    assert outer == line[s..s + |outer|];
    forall k | 0 <= k < |inner|
      ensures outer[j - s..j - s + |inner|][k] == inner[k]
    {
      assert outer[j - s + k] == line[j + k];
      assert line[j..j + |inner|][k] == line[j + k];
    }
    assert outer[j - s..j - s + |inner|] == inner;
    assert OccursAt(outer, inner, j - s);
    WordsAreDistinctive();
    DigitsAreWords(v);
    DigitsAreWords(w);
  }

  /** At most one word starts at any index. */
  lemma WordAtUnique(line: string, i: int, v: int, w: int)
    requires WordAt(line, i, v) && WordAt(line, i, w)
    ensures v == w
  {
    if WordLen(w) <= WordLen(v) {
      WordWithinWord(line, i, v, i, w);
    } else {
      WordWithinWord(line, i, w, i, v);
    }
  }

  /** Every word starts with a letter, so no word starts at a digit. */
  lemma WordNotAtDigit(line: string, i: int, v: int)
    requires WordAt(line, i, v)
    ensures !IsDigit(line[i])
  {
    assert line[i] == line[i..i + WordLen(v)][0];
  }

  /** There is at most one first token. */
  lemma FirstTokenUnique(line: string, i: int, v: int, j: int, w: int)
    requires IsFirstToken(line, i, v) && IsFirstToken(line, j, w)
    ensures i == j && v == w
  {
    TokenAtUnique(line, i, v, w);
  }

  /** There is at most one last token. */
  lemma LastTokenUnique(line: string, i: int, v: int, j: int, w: int)
    requires IsLastToken(line, i, v) && IsLastToken(line, j, w)
    ensures i == j && v == w
  {
    TokenAtUnique(line, i, v, w);
  }

  /** At most one token starts at any index. */
  lemma TokenAtUnique(line: string, i: int, v: int, w: int)
    requires TokenAt(line, i, v) && TokenAt(line, i, w)
    ensures v == w
  {
    if WordAt(line, i, v) {
      WordNotAtDigit(line, i, v);
      WordAtUnique(line, i, v, w);
    } else if WordAt(line, i, w) {
      WordNotAtDigit(line, i, w);
    }
  }

  lemma ConvertedTermIsWord(line: string, i: nat, term: string)
    requires term in Digits && SearchForward(line, i, term)
    ensures ConvertDigit(term).Some? && WordAt(line, i, ConvertDigit(term).value)
  {
    var k :| 0 <= k < |Digits| && Digits[k] == term;
    SearchForwardFindsOccurrence(line, i, term);
  }

  lemma NoTermNoWord(line: string, i: nat)
    requires forall t :: t in Digits ==> !SearchForward(line, i, t)
    ensures forall v :: !WordAt(line, i, v)
  {
    forall v | 1 <= v <= 9
      ensures !WordAt(line, i, v)
    {
      assert Digits[v - 1] in Digits;
      SearchForwardFindsOccurrence(line, i, Digits[v - 1]);
    }
  }

  // ---- index_first_letter / index_last_letter ------------------------

  lemma {:induction false} FirstLetterValueBound(line: string, i: nat)
    requires i <= |line|
    ensures FirstLetterFrom(line, i).Some? ==> FirstLetterFrom(line, i).value.1 <= 9
    decreases |line| - i
  {
    if i < |line| && TermAt(line, i, Digits).None? {
      FirstLetterValueBound(line, i + 1);
    }
  }

  lemma {:induction false} LastLetterValueBound(line: string, rev: string, i: nat)
    requires |rev| == |line| && i <= |line|
    ensures LastLetterFrom(line, rev, i).Some? ==> LastLetterFrom(line, rev, i).value.1 <= 9
    decreases |line| - i
  {
    if i < |line| && ReversedTermAt(rev, i, Digits).None? {
      LastLetterValueBound(line, rev, i + 1);
    }
  }

  lemma {:induction false} FirstLetterFromFinds(line: string, i: nat)
    requires i <= |line|
    ensures FirstLetterFrom(line, i).None? <==> forall j, v :: i <= j ==> !WordAt(line, j, v)
    ensures FirstLetterFrom(line, i).Some? ==>
              var (p, v) := FirstLetterFrom(line, i).value;
              i <= p && WordAt(line, p, v) && forall j, w :: i <= j < p ==> !WordAt(line, j, w)
    decreases |line| - i
  {
    if i < |line| {
      match TermAt(line, i, Digits)
      case Some(term) =>
        ConvertedTermIsWord(line, i, term);
      case None =>
        NoTermNoWord(line, i);
        FirstLetterFromFinds(line, i + 1);
        NoWordShiftsForward(line, i, FirstLetterFrom(line, i + 1));
    }
  }

  /** A scan result for the rest of the line after `i` is one for the line
      from `i` when no word starts at `i`. */
  lemma NoWordShiftsForward(line: string, i: nat, r: Option<(nat, nat)>)
    requires forall v :: !WordAt(line, i, v)
    requires r.None? <==> forall j, v :: i + 1 <= j ==> !WordAt(line, j, v)
    requires r.Some? ==>
               var (p, v) := r.value;
               i + 1 <= p && WordAt(line, p, v) && forall j, w :: i + 1 <= j < p ==> !WordAt(line, j, w)
    ensures r.None? <==> forall j, v :: i <= j ==> !WordAt(line, j, v)
    ensures r.Some? ==>
              var (p, v) := r.value;
              i <= p && WordAt(line, p, v) && forall j, w :: i <= j < p ==> !WordAt(line, j, w)
  {
  }

  /** `index_first_letter` finds the smallest index at which a number word
      starts, with that word's value; it finds nothing iff no word occurs. */
  lemma IndexFirstLetterIsFirstWord(line: string)
    ensures IndexFirstLetter(line).None? <==> forall j, v :: !WordAt(line, j, v)
    ensures IndexFirstLetter(line).Some? ==>
              var (p, v) := IndexFirstLetter(line).value;
              WordAt(line, p, v) && forall j, w :: j < p ==> !WordAt(line, j, w)
  {
    FirstLetterFromFinds(line, 0);
  }

  lemma {:induction false} LastLetterFromFinds(line: string, i: nat)
    requires i <= |line|
    ensures LastLetterFrom(line, Reverse(line), i).None? <==>
              forall j, v :: WordAt(line, j, v) ==> j + WordLen(v) > |line| - i
    ensures LastLetterFrom(line, Reverse(line), i).Some? ==>
              var (p, v) := LastLetterFrom(line, Reverse(line), i).value;
              && WordAt(line, p, v) && p + WordLen(v) <= |line| - i
              && forall j, w :: WordAt(line, j, w) && j + WordLen(w) <= |line| - i ==> j + WordLen(w) <= p + WordLen(v)
    decreases |line| - i
  {
    var rev := Reverse(line);
    if i < |line| {
      var found := ReversedTermAt(rev, i, Digits);
      if found.None? {
        LastLetterFromFinds(line, i + 1);
      }
      LastLetterStep(line, i, found, LastLetterFrom(line, rev, i), LastLetterFrom(line, rev, i + 1));
    }
  }

  /** One step of the backward scan, given what it finds `i` characters
      from the end and, if nothing, what the rest of the scan reports. */
  lemma LastLetterStep(line: string, i: nat, found: Option<string>, r: Option<(int, nat)>, next: Option<(int, nat)>)
    requires i < |line|
    requires found == ReversedTermAt(Reverse(line), i, Digits)
    requires r == match found
                  case Some(term) =>
                    (match ConvertDigit(term)
                     case Some(v) => Some(((|line| - i) - |term|, v))
                     case None => None)
                  case None => next
    requires found.None? ==> (next.None? <==> forall j, v :: WordAt(line, j, v) ==> j + WordLen(v) > |line| - (i + 1))
    requires found.None? && next.Some? ==>
               var (p, v) := next.value;
               && WordAt(line, p, v) && p + WordLen(v) <= |line| - (i + 1)
               && forall j, w :: WordAt(line, j, w) && j + WordLen(w) <= |line| - (i + 1) ==> j + WordLen(w) <= p + WordLen(v)
    ensures r.None? <==> forall j, v :: WordAt(line, j, v) ==> j + WordLen(v) > |line| - i
    ensures r.Some? ==>
              var (p, v) := r.value;
              && WordAt(line, p, v) && p + WordLen(v) <= |line| - i
              && forall j, w :: WordAt(line, j, w) && j + WordLen(w) <= |line| - i ==> j + WordLen(w) <= p + WordLen(v)
  {
    match found
    case Some(term) =>
      WordEndsHere(line, i, term, r);
    case None =>
      NoWordEndsHere(line, i);
      NoWordEndShiftsBack(line, i, next);
  }

  /** When the backward scan meets no reversed word `i` characters from
      the end, no word ends there. */
  lemma NoWordEndsHere(line: string, i: nat)
    requires i < |line|
    requires ReversedTermAt(Reverse(line), i, Digits).None?
    ensures forall j, v :: WordAt(line, j, v) ==> j + WordLen(v) != |line| - i
  {
    forall j, v | WordAt(line, j, v)
      ensures j + WordLen(v) != |line| - i
    {
      SearchReversed(line, i, Digits[v - 1]);
    }
  }

  /** When the backward scan meets a reversed word `i` characters from the
      end, the word it reports is the last one ending there or earlier. */
  lemma WordEndsHere(line: string, i: nat, term: string, r: Option<(int, nat)>)
    requires i < |line|
    requires ReversedTermAt(Reverse(line), i, Digits) == Some(term)
    requires r == match ConvertDigit(term)
                  case Some(v) => Some(((|line| - i) - |term|, v))
                  case None => None
    ensures r.Some?
    ensures var (p, v) := r.value;
            && WordAt(line, p, v) && p + WordLen(v) <= |line| - i
            && forall j, w :: WordAt(line, j, w) && j + WordLen(w) <= |line| - i ==> j + WordLen(w) <= p + WordLen(v)
  {
    var k :| 0 <= k < |Digits| && Digits[k] == term;
    SearchReversed(line, i, term);
    assert ConvertDigit(term) == Some(k + 1);
    assert WordAt(line, |line| - i - |term|, k + 1);
  }

  /** A backward scan result for the line without its last `i + 1`
      characters is one for the line without its last `i` when no word
      ends exactly there. */
  lemma NoWordEndShiftsBack(line: string, i: nat, r: Option<(int, nat)>)
    requires i < |line|
    requires forall j, v :: WordAt(line, j, v) ==> j + WordLen(v) != |line| - i
    requires r.None? <==> forall j, v :: WordAt(line, j, v) ==> j + WordLen(v) > |line| - (i + 1)
    requires r.Some? ==>
               var (p, v) := r.value;
               && WordAt(line, p, v) && p + WordLen(v) <= |line| - (i + 1)
               && forall j, w :: WordAt(line, j, w) && j + WordLen(w) <= |line| - (i + 1) ==> j + WordLen(w) <= p + WordLen(v)
    ensures r.None? <==> forall j, v :: WordAt(line, j, v) ==> j + WordLen(v) > |line| - i
    ensures r.Some? ==>
              var (p, v) := r.value;
              && WordAt(line, p, v) && p + WordLen(v) <= |line| - i
              && forall j, w :: WordAt(line, j, w) && j + WordLen(w) <= |line| - i ==> j + WordLen(w) <= p + WordLen(v)
  {
  }

  /** `index_last_letter` reports the start of the word occurrence that
      ends last; since no word lies inside another, that is also the word
      that starts last.  It finds nothing iff no word occurs. */
  lemma IndexLastLetterIsLastWord(line: string)
    ensures IndexLastLetter(line).None? <==> forall j, v :: !WordAt(line, j, v)
    ensures IndexLastLetter(line).Some? ==>
              var (p, v) := IndexLastLetter(line).value;
              && WordAt(line, p, v) && p + WordLen(v) <= |line|
              && (forall j, w :: WordAt(line, j, w) ==> j + WordLen(w) <= p + WordLen(v))
              && (forall j, w :: WordAt(line, j, w) ==> j <= p)
  {
    LastLetterFromFinds(line, 0);
    if IndexLastLetter(line).Some? {
      var (p, v) := IndexLastLetter(line).value;
      forall j, w | WordAt(line, j, w)
        ensures j <= p
      {
        if j > p {
          WordWithinWord(line, p, v, j, w);
        }
      }
    }
  }

  // ---- parse_first / parse_last / parse_with_digits -------------------

  /** The forward pass fails iff the line holds no token at all; otherwise
      it yields the value of the token starting earliest.  A digit and a
      word never start at the same index, so the failure branch is only
      taken when both searches come back empty.  (Indices stay below the
      `usize::MAX` sentinel because a Rust string is shorter than that.) */
  lemma ParseFirstIsFirstToken(line: string)
    requires |line| <= UsizeMax
    ensures ParseFirst(line).Failure? <==> forall j, v :: !TokenAt(line, j, v)
    ensures ParseFirst(line).Ok? ==> exists i :: IsFirstToken(line, i, ParseFirst(line).value)
    ensures forall i, v :: IsFirstToken(line, i, v) ==> ParseFirst(line) == Ok(v)
  {
    IndexFirstLetterIsFirstWord(line);
    FirstOfScans(line, IndexFirstDigit(line), IndexFirstLetter(line), ParseFirst(line));
  }

  /** `parse_first`'s comparison of the results of the two forward scans
      picks the first token. */
  lemma FirstOfScans(line: string, d: Option<(nat, nat)>, l: Option<(nat, nat)>, r: Result<nat>)
    requires |line| <= UsizeMax
    requires d.None? <==> NoDigit(line)
    requires d.Some? ==> FirstDigitAt(line, d.value.0) && d.value.1 == DigitValue(line[d.value.0])
    requires l.None? <==> forall j, v :: !WordAt(line, j, v)
    requires l.Some? ==> WordAt(line, l.value.0, l.value.1) && forall j, w :: j < l.value.0 ==> !WordAt(line, j, w)
    requires r == (var (dI, dV) := d.GetOr((UsizeMax, 0));
                   var (lI, lV) := l.GetOr((UsizeMax, 0));
                   if dI > lI then Ok(lV) else if dI < lI then Ok(dV) else Failure)
    ensures r.Failure? <==> forall j, v :: !TokenAt(line, j, v)
    ensures r.Ok? ==> exists i :: IsFirstToken(line, i, r.value)
    ensures forall i, v :: IsFirstToken(line, i, v) ==> r == Ok(v)
  {
    var first: int;
    if d.Some? && l.Some? {
      var (di, dv) := d.value;
      var (li, lv) := l.value;
      WordNotAtDigit(line, li, lv);
      if di < li {
        assert r == Ok(dv);
        first := di;
        assert IsFirstToken(line, di, dv);
      } else {
        assert r == Ok(lv);
        first := li;
        assert IsFirstToken(line, li, lv);
      }
    } else if d.Some? {
      var (di, dv) := d.value;
      assert r == Ok(dv);
      first := di;
      assert IsFirstToken(line, di, dv);
    } else if l.Some? {
      var (li, lv) := l.value;
      assert r == Ok(lv);
      first := li;
      assert IsFirstToken(line, li, lv);
    } else {
      assert r == Failure;
      forall j, v | TokenAt(line, j, v)
        ensures false
      {
      }
    }
    forall i, v | IsFirstToken(line, i, v)
      ensures r == Ok(v)
    {
      FirstTokenUnique(line, i, v, first, r.value);
    }
  }

  /** The backward pass fails iff the line holds no token at all;
      otherwise it yields the value of the token starting latest. */
  lemma ParseLastIsLastToken(line: string)
    ensures ParseLast(line).Failure? <==> forall j, v :: !TokenAt(line, j, v)
    ensures ParseLast(line).Ok? ==> exists i :: IsLastToken(line, i, ParseLast(line).value)
    ensures forall i, v :: IsLastToken(line, i, v) ==> ParseLast(line) == Ok(v)
  {
    IndexLastLetterIsLastWord(line);
    LastOfScans(line, IndexLastDigit(line), IndexLastLetter(line), ParseLast(line));
  }

  /** `parse_last`'s comparison of the results of the two backward scans
      picks the last token. */
  lemma LastOfScans(line: string, d: Option<(int, nat)>, l: Option<(int, nat)>, r: Result<nat>)
    requires d.None? <==> NoDigit(line)
    requires d.Some? ==> LastDigitAt(line, d.value.0) && d.value.1 == DigitValue(line[d.value.0])
    requires l.None? <==> forall j, v :: !WordAt(line, j, v)
    requires l.Some? ==> WordAt(line, l.value.0, l.value.1) && forall j, w :: WordAt(line, j, w) ==> j <= l.value.0
    requires r == (var (dI, dV) := d.GetOr((I32Min, 0));
                   var (lI, lV) := l.GetOr((I32Min, 0));
                   if dI < lI then Ok(lV) else if dI > lI then Ok(dV) else Failure)
    ensures r.Failure? <==> forall j, v :: !TokenAt(line, j, v)
    ensures r.Ok? ==> exists i :: IsLastToken(line, i, r.value)
    ensures forall i, v :: IsLastToken(line, i, v) ==> r == Ok(v)
  {
    var last: int;
    if d.Some? && l.Some? {
      var (di, dv) := d.value;
      var (li, lv) := l.value;
      WordNotAtDigit(line, li, lv);
      if di > li {
        assert r == Ok(dv);
        last := di;
        assert IsLastToken(line, di, dv);
      } else {
        assert r == Ok(lv);
        last := li;
        assert IsLastToken(line, li, lv);
      }
    } else if d.Some? {
      var (di, dv) := d.value;
      assert r == Ok(dv);
      last := di;
      assert IsLastToken(line, di, dv);
    } else if l.Some? {
      var (li, lv) := l.value;
      assert r == Ok(lv);
      last := li;
      assert IsLastToken(line, li, lv);
    } else {
      assert r == Failure;
      forall j, v | TokenAt(line, j, v)
        ensures false
      {
      }
    }
    forall i, v | IsLastToken(line, i, v)
      ensures r == Ok(v)
    {
      LastTokenUnique(line, i, v, last, r.value);
    }
  }

  /** `parse_with_digits` fails iff the line holds no token; otherwise it
      is ten times the first token's value plus the last token's value. */
  lemma ParseWithDigitsCombinesTokens(line: string)
    requires |line| <= UsizeMax
    ensures ParseWithDigits(line).Failure? <==> forall j, v :: !TokenAt(line, j, v)
    ensures ParseWithDigits(line).Ok? ==>
              exists i, f, j, l :: IsFirstToken(line, i, f) && IsLastToken(line, j, l) && ParseWithDigits(line).value == 10 * f + l
    ensures forall i, f, j, l :: IsFirstToken(line, i, f) && IsLastToken(line, j, l) ==> ParseWithDigits(line) == Ok(10 * f + l)
  {
    ParseFirstIsFirstToken(line);
    ParseLastIsLastToken(line);
    CombineFirstAndLast(line, ParseFirst(line), ParseLast(line), ParseWithDigits(line));
  }

  /** How `parse_with_digits` combines the two passes, given what each
      pass yields. */
  lemma CombineFirstAndLast(line: string, first: Result<nat>, last: Result<nat>, r: Result<nat>)
    requires r == if first.Ok? && last.Ok? then Ok(first.value * 10 + last.value) else Failure
    requires first.Failure? <==> forall j, v :: !TokenAt(line, j, v)
    requires last.Failure? <==> forall j, v :: !TokenAt(line, j, v)
    requires first.Ok? ==> exists i :: IsFirstToken(line, i, first.value)
    requires last.Ok? ==> exists i :: IsLastToken(line, i, last.value)
    requires forall i, v :: IsFirstToken(line, i, v) ==> first == Ok(v)
    requires forall i, v :: IsLastToken(line, i, v) ==> last == Ok(v)
    ensures r.Failure? <==> forall j, v :: !TokenAt(line, j, v)
    ensures r.Ok? ==> exists i, f, j, l :: IsFirstToken(line, i, f) && IsLastToken(line, j, l) && r.value == 10 * f + l
    ensures forall i, f, j, l :: IsFirstToken(line, i, f) && IsLastToken(line, j, l) ==> r == Ok(10 * f + l)
  {
    if r.Ok? {
      var i :| IsFirstToken(line, i, first.value);
      var j :| IsLastToken(line, j, last.value);
      assert IsFirstToken(line, i, first.value) && IsLastToken(line, j, last.value);
    }
  }

  // ---- parse_line ------------------------------------------------------

  lemma {:induction false} DigitValuesEmpty(line: string)
    ensures |DigitValues(line)| == 0 <==> NoDigit(line)
    decreases |line|
  {
    if |line| > 0 {
      var tail := line[1..];
      DigitValuesEmpty(tail);
      assert forall j :: 0 < j < |line| ==> line[j] == tail[j - 1];
    }
  }

  lemma {:induction false} DigitValuesFirst(line: string, i: int)
    requires FirstDigitAt(line, i)
    ensures |DigitValues(line)| > 0 && DigitValues(line)[0] == DigitValue(line[i])
    decreases |line|
  {
    if i > 0 {
      var tail := line[1..];
      assert FirstDigitAt(tail, i - 1) by {
        assert forall j :: 0 < j < |line| ==> line[j] == tail[j - 1];
      }
      DigitValuesFirst(tail, i - 1);
      assert DigitValues(line) == DigitValues(tail);
    }
  }

  lemma {:induction false} DigitValuesLast(line: string, i: int)
    requires LastDigitAt(line, i)
    ensures |DigitValues(line)| > 0 && DigitValues(line)[|DigitValues(line)| - 1] == DigitValue(line[i])
    decreases |line|
  {
    var tail := line[1..];
    assert forall j :: 0 < j < |line| ==> line[j] == tail[j - 1];
    if i > 0 {
      assert LastDigitAt(tail, i - 1);
      DigitValuesLast(tail, i - 1);
    } else {
      DigitValuesEmpty(tail);
      assert DigitValues(line) == [DigitValue(line[0])];
    }
  }

  /** `parse_line` fails iff the line has no digit; otherwise it is ten
      times the first digit plus the last digit. */
  lemma ParseLineIsFirstAndLastDigit(line: string)
    ensures ParseLine(line).Failure? <==> NoDigit(line)
    ensures forall i, j :: FirstDigitAt(line, i) && LastDigitAt(line, j) ==>
              ParseLine(line) == Ok(10 * DigitValue(line[i]) + DigitValue(line[j]))
  {
    DigitValuesEmpty(line);
    forall i, j | FirstDigitAt(line, i) && LastDigitAt(line, j)
      ensures ParseLine(line) == Ok(10 * DigitValue(line[i]) + DigitValue(line[j]))
    {
      DigitValuesFirst(line, i);
      DigitValuesLast(line, j);
    }
  }

  lemma ParseLineOfDigits(line: string, i: int, j: int)
    requires FirstDigitAt(line, i) && LastDigitAt(line, j)
    ensures ParseLine(line) == Ok(10 * DigitValue(line[i]) + DigitValue(line[j]))
  {
    ParseLineIsFirstAndLastDigit(line);
  }

  /** A line with a single digit `d` yields `11 * d`. */
  lemma ParseLineSingleDigit(line: string, i: nat)
    requires FirstDigitAt(line, i) && LastDigitAt(line, i)
    ensures ParseLine(line) == Ok(11 * DigitValue(line[i]))
  {
    ParseLineIsFirstAndLastDigit(line);
  }

  /** On a line without number words both strategies agree. */
  lemma WithoutWordsBothParsesAgree(line: string)
    requires |line| <= UsizeMax
    requires forall j, v :: !WordAt(line, j, v)
    ensures ParseWithDigits(line) == ParseLine(line)
  {
    if NoDigit(line) {
      WithoutTokensBothFail(line);
    } else {
      var i, j := IndexFirstDigit(line).value.0, IndexLastDigit(line).value.0;
      WithoutWordsDigitsAgree(line, i, j);
    }
  }

  lemma WithoutTokensBothFail(line: string)
    requires |line| <= UsizeMax
    requires forall j, v :: !WordAt(line, j, v)
    requires NoDigit(line)
    ensures ParseWithDigits(line).Failure? && ParseLine(line).Failure?
  {
    ParseWithDigitsCombinesTokens(line);
    ParseLineIsFirstAndLastDigit(line);
  }

  lemma WithoutWordsDigitsAgree(line: string, i: int, j: int)
    requires |line| <= UsizeMax
    requires forall j, v :: !WordAt(line, j, v)
    requires FirstDigitAt(line, i) && LastDigitAt(line, j)
    ensures ParseWithDigits(line) == ParseLine(line)
  {
    var f, l := DigitValue(line[i]), DigitValue(line[j]);
    assert ParseWithDigits(line) == Ok(10 * f + l) by {
      DigitIsFirstToken(line, i);
      DigitIsLastToken(line, j);
      ParseWithDigitsOfTokens(line, i, f, j, l);
    }
    assert ParseLine(line) == Ok(10 * f + l) by {
      ParseLineOfDigits(line, i, j);
    }
  }

  /** `parse_with_digits`, given where the first and last tokens are. */
  lemma ParseWithDigitsOfTokens(line: string, i: int, f: int, j: int, l: int)
    requires |line| <= UsizeMax
    requires IsFirstToken(line, i, f) && IsLastToken(line, j, l)
    ensures ParseWithDigits(line) == Ok(10 * f + l)
  {
    ParseWithDigitsCombinesTokens(line);
  }

  /** Without number words, the first digit is the first token. */
  lemma DigitIsFirstToken(line: string, i: int)
    requires forall j, v :: !WordAt(line, j, v)
    requires FirstDigitAt(line, i)
    ensures IsFirstToken(line, i, DigitValue(line[i]))
  {
  }

  /** Without number words, the last digit is the last token. */
  lemma DigitIsLastToken(line: string, i: int)
    requires forall j, v :: !WordAt(line, j, v)
    requires LastDigitAt(line, i)
    ensures IsLastToken(line, i, DigitValue(line[i]))
  {
  }

  // ---- drivers ----------------------------------------------------------

  lemma {:induction false} SumLinesBound(lines: seq<string>, parse: string -> Result<nat>, bound: nat)
    requires forall k :: 0 <= k < |lines| && parse(lines[k]).Ok? ==> parse(lines[k]).value <= bound
    ensures SumLines(lines, parse).Ok? ==> SumLines(lines, parse).value <= bound * |lines|
    decreases |lines|
  {
    if |lines| > 0 {
      SumLinesBound(lines[..|lines| - 1], parse, bound);
    }
  }

  /** The calibration values of `lines`, added up front to back. */
  ghost function TotalOf(lines: seq<string>, parse: string -> Result<nat>): nat
    requires forall k :: 0 <= k < |lines| ==> parse(lines[k]).Ok?
  {
    if |lines| == 0 then 0 else parse(lines[0]).value + TotalOf(lines[1..], parse)
  }

  lemma {:induction false} TotalOfLast(lines: seq<string>, parse: string -> Result<nat>)
    requires |lines| > 0
    requires forall k :: 0 <= k < |lines| ==> parse(lines[k]).Ok?
    ensures TotalOf(lines, parse) == TotalOf(lines[..|lines| - 1], parse) + parse(lines[|lines| - 1]).value
    decreases |lines|
  {
    if |lines| > 1 {
      var tail := lines[1..];
      assert tail[..|tail| - 1] == lines[..|lines| - 1][1..];
      TotalOfLast(tail, parse);
    }
  }

  /** When every line parses, the driver's sum is the sum of all the
      lines' calibration values. */
  lemma {:induction false} SumLinesIsTotal(lines: seq<string>, parse: string -> Result<nat>)
    requires forall k :: 0 <= k < |lines| ==> parse(lines[k]).Ok?
    ensures SumLines(lines, parse) == Ok(TotalOf(lines, parse))
    decreases |lines|
  {
    if |lines| > 0 {
      SumLinesIsTotal(lines[..|lines| - 1], parse);
      TotalOfLast(lines, parse);
    }
  }
}

=== FILE: day2.dfy ===
/** Day 2: parsing and checking records of cube games.

    A record line reads like `Game 4: 1 green, 3 red, 6 blue; 3 green, 6 red`.
    The number before the colon is the game's id; after the colon come the
    draws, separated by `;`, each a comma-separated list of `<count> <colour>`
    parts.  A game is possible with the bag of 12 red, 13 green and 14 blue
    cubes when every draw stays within those limits; the smallest bag that
    makes a game possible is the colour-wise maximum of its draws.
 */
module Day2 {
  import opened Wrappers
  import opened Text

  /** `MAX_RED`, `MAX_GREEN`, `MAX_BLUE`: the contents of the bag. */
  const MaxRed: nat := 12
  const MaxGreen: nat := 13
  const MaxBlue: nat := 14

  datatype Colour = Blue | Red | Green

  /** `Draw`: how many cubes of each colour were shown at once. */
  datatype Draw = Draw(blue: nat, red: nat, green: nat) {

    function Count(c: Colour): nat {
      match c
      case Blue => blue
      case Red => red
      case Green => green
    }

    /** This draw with the count of `c` replaced by `n`. */
    function With(c: Colour, n: nat): (d: Draw)
      ensures d.Count(c) == n
      ensures forall e :: e != c ==> d.Count(e) == Count(e)
    {
      match c
      case Blue => this.(blue := n)
      case Red => this.(red := n)
      case Green => this.(green := n)
    }

    /** `Draw::power`: the product of the three counts. */
    function Power(): (p: nat)
      ensures p == 0 <==> blue == 0 || red == 0 || green == 0
    {
      blue * red * green
    }

    /** `Draw::validate`: the draw fits in the bag. */
    predicate Valid()
      ensures Valid() <==> Within(this, Bag)
    {
      assert Count(Red) == red && Count(Blue) == blue && Count(Green) == green;
      red <= MaxRed && blue <= MaxBlue && green <= MaxGreen
    }
  }

  /** `Draw::default()`. */
  const NoCubes := Draw(0, 0, 0)

  /** The bag the game is played with, as a draw. */
  const Bag := Draw(MaxBlue, MaxRed, MaxGreen)

  /** No colour of `d` exceeds that colour of `e`. */
  ghost predicate Within(d: Draw, e: Draw) {
    forall c :: d.Count(c) <= e.Count(c)
  }

  /** `Game`: an id and the draws in the order they were recorded. */
  datatype Game = Game(id: nat, draws: seq<Draw>) {

    /** `Game::validate`. */
    predicate Valid() {
      AllValid(draws)
    }

    /** `Game::minimum`. */
    function Minimum(): Draw {
      MinimumOf(draws)
    }

    /** `impl Add for Game`: ids are added, draws are dropped. */
    function Add(rhs: Game): Game {
      Game(id + rhs.id, [])
    }
  }

  /** `Game::default()`. */
  const NoGame := Game(0, [])

  // =====================================================================
  // Checking games
  // =====================================================================

  /** The loop of `Game::validate`: stop at the first invalid draw. */
  function AllValid(draws: seq<Draw>): (ok: bool)
    ensures ok <==> forall k :: 0 <= k < |draws| ==> draws[k].Valid()
  {
    if |draws| == 0 then true
    else if !draws[0].Valid() then false
    else AllValid(draws[1..])
  }

  /** One pass of the loop of `Game::minimum`: raise each running maximum
      that `d` exceeds. */
  function Raise(acc: Draw, d: Draw): (r: Draw)
    ensures forall c :: acc.Count(c) <= r.Count(c) && d.Count(c) <= r.Count(c)
    ensures forall c :: r.Count(c) == acc.Count(c) || r.Count(c) == d.Count(c)
  {
    var red := if d.red > acc.red then d.red else acc.red;
    var green := if d.green > acc.green then d.green else acc.green;
    var blue := if d.blue > acc.blue then d.blue else acc.blue;
    Draw(blue, red, green)
  }

  /** `Game::minimum` over the draws seen so far, starting from no cubes:
      each colour is the largest count of it in any draw, or 0. */
  function MinimumOf(draws: seq<Draw>): (m: Draw)
    ensures forall k, c :: 0 <= k < |draws| ==> draws[k].Count(c) <= m.Count(c)
    ensures forall c :: m.Count(c) == 0 || exists k :: 0 <= k < |draws| && draws[k].Count(c) == m.Count(c)
  {
    if |draws| == 0 then NoCubes
    else
      var prefix := draws[..|draws| - 1];
      assert forall k :: 0 <= k < |prefix| ==> prefix[k] == draws[k];
      Raise(MinimumOf(prefix), draws[|draws| - 1])
  }

  // =====================================================================
  // Parsing a record line
  // =====================================================================

  /** The field a comma-separated part sets: the first of "blue", "green",
      "red" that it contains, in that order. */
  function ColourOf(part: string): Option<Colour> {
    if Contains(part, "blue") then Some(Blue)
    else if Contains(part, "green") then Some(Green)
    else if Contains(part, "red") then Some(Red)
    else None
  }

  /** `Draw::parse_inner`: the first space-separated word of the trimmed
      part, read as a number. */
  function ParseInner(part: string): (r: Result<nat>)
    ensures forall w :: LeadingPiece(Trim(part), ' ', w) ==> r == ParseNat(w)
  {
    var words := Split(Trim(part), ' ');
    SplitFirstPiece(Trim(part), ' ');
    ParseNat(words[0])
  }

  /** `Draw::from_input`. */
  function FromInput(text: string): Result<Draw> {
    FromParts(Split(text, ','), NoCubes)
  }

  /** The loop of `Draw::from_input` over the remaining parts, with the
      draw built so far: each part that names a colour overwrites that
      colour's count, and a count that does not parse fails the draw. */
  function FromParts(parts: seq<string>, draw: Draw): Result<Draw>
    decreases |parts|
  {
    if |parts| == 0 then Ok(draw)
    else
      match ColourOf(parts[0])
      case None => FromParts(parts[1..], draw)
      case Some(c) =>
        var n :- ParseInner(parts[0]);
        FromParts(parts[1..], draw.With(c, n))
  }

  /** The inner loop of `Game::from_line`: one draw per `;`-separated
      piece, in order; the first failing piece fails them all. */
  function DrawsOf(pieces: seq<string>): (r: Result<seq<Draw>>)
    ensures r.Ok? <==> forall k :: 0 <= k < |pieces| ==> FromInput(pieces[k]).Ok?
    ensures r.Ok? ==> |r.value| == |pieces|
    ensures r.Ok? ==> forall k :: 0 <= k < |pieces| ==> r.value[k] == FromInput(pieces[k]).value
  {
    if |pieces| == 0 then Ok([])
    else
      var d :- FromInput(pieces[0]);
      var rest :- DrawsOf(pieces[1..]);
      Ok([d] + rest)
  }

  /** The header step of `Game::from_line`: the last space-separated word
      of the header, read as a number. */
  function IdOf(header: string): Result<nat> {
    var words := Split(header, ' ');
    ParseNat(words[|words| - 1])
  }

  /** `Game::from_line`: the id is the last space-separated word before the
      first colon, the draws come from the text between the first and the
      second colon (there are none without a colon), and whatever follows
      a second colon is ignored.  `split` always yields a first and a last
      piece, so the source's `unwrap_or("0")` is never used. */
  function FromLine(line: string): Result<Game> {
    var segments := Split(line, ':');
    var id :- IdOf(segments[0]);
    if |segments| == 1 then Ok(Game(id, []))
    else
      var draws :- DrawsOf(Split(segments[1], ';'));
      Ok(Game(id, draws))
  }

  // =====================================================================
  // The two answers over a whole input
  // =====================================================================

  /** A line's game; a line that does not parse counts as the default,
      empty game (`unwrap_or(Game::default())`). */
  function GameOf(line: string): Game {
    FromLine(line).GetOr(NoGame)
  }

  function GamesOf(lines: seq<string>): (games: seq<Game>)
    ensures |games| == |lines|
    ensures forall k :: 0 <= k < |lines| ==> games[k] == GameOf(lines[k])
  {
    seq(|lines|, k requires 0 <= k < |lines| => GameOf(lines[k]))
  }

  /** `filter(|x| x.validate())`: the possible games and nothing else. */
  function ValidGames(games: seq<Game>): (r: seq<Game>)
    ensures |r| <= |games|
  {
    if |games| == 0 then []
    else
      var rest := ValidGames(games[1..]);
      if games[0].Valid() then [games[0]] + rest else rest
  }

  /** `reduce(|a, x| a + x)`: a game exactly when there is one, whose id
      is the sum of all ids; only a single game keeps its draws. */
  function Reduce(games: seq<Game>): (r: Option<Game>)
    ensures r.Some? <==> |games| > 0
    ensures r.Some? ==> r.value.id == IdSum(games)
    ensures |games| == 1 ==> r == Some(games[0])
    ensures |games| > 1 ==> r.value.draws == []
  {
    if |games| == 0 then None else Some(FoldAdd(games[0], games[1..]))
  }

  /** The games added to `acc` from the left: the ids are summed and, once
      anything has been added, the draws are gone. */
  function FoldAdd(acc: Game, games: seq<Game>): (r: Game)
    ensures r.id == acc.id + IdSum(games)
    ensures |games| == 0 ==> r == acc
    ensures |games| > 0 ==> r.draws == []
    decreases |games|
  {
    if |games| == 0 then acc else FoldAdd(acc.Add(games[0]), games[1..])
  }

  /** `driver` on the text of the input file: the sum of the ids of the
      possible games.  The source unwraps the reduction, so it panics when
      no game is possible; that is excluded here. */
  function Driver(content: string): (r: nat)
    requires exists g :: g in GamesOf(Split(content, '\n')) && g.Valid()
    ensures r == ValidIdSum(GamesOf(Split(content, '\n')))
  {
    var games := GamesOf(Split(content, '\n'));
    var valid := ValidGames(games);
    var g :| g in games && g.Valid();
    ValidGamesMembers(games);
    assert g in valid;
    ValidGamesIdSum(games);
    Reduce(valid).value.id
  }

  /** `driver_two` on the text of the input file: the sum of the powers of
      the smallest bags that make each game possible. */
  function DriverTwo(content: string): (r: nat)
    ensures r == PowerSum(GamesOf(Split(content, '\n')))
  {
    FoldPowers(GamesOf(Split(content, '\n')), 0)
  }

  /** `fold(0, |acc, x| acc + x.power())` over the games' minimum draws:
      `acc` plus the powers of all the minimum draws. */
  function FoldPowers(games: seq<Game>, acc: nat): (r: nat)
    ensures r == acc + PowerSum(games)
    decreases |games|
  {
    if |games| == 0 then acc else FoldPowers(games[1..], acc + games[0].Minimum().Power())
  }

  // =====================================================================
  // Reference definitions
  // =====================================================================

  ghost function IdSum(games: seq<Game>): nat {
    if |games| == 0 then 0 else games[0].id + IdSum(games[1..])
  }

  /** The sum of the ids of the possible games. */
  ghost function ValidIdSum(games: seq<Game>): nat {
    if |games| == 0 then 0
    else (if games[0].Valid() then games[0].id else 0) + ValidIdSum(games[1..])
  }

  ghost function PowerSum(games: seq<Game>): nat {
    if |games| == 0 then 0 else games[0].Minimum().Power() + PowerSum(games[1..])
  }

  /** The part naming colour `c` that is read last in `parts`. */
  ghost predicate LastNaming(parts: seq<string>, c: Colour, k: int) {
    && 0 <= k < |parts| && ColourOf(parts[k]) == Some(c)
    && forall j :: k < j < |parts| ==> ColourOf(parts[j]) != Some(c)
  }

  ghost predicate NoneNaming(parts: seq<string>, c: Colour) {
    forall k :: 0 <= k < |parts| ==> ColourOf(parts[k]) != Some(c)
  }

  // =====================================================================
  // Lemmas: checking games
  // =====================================================================

  /** A bag holds every draw of a game iff it holds the game's minimum:
      the minimum is the smallest bag that makes the game possible. */
  lemma MinimumIsLeast(draws: seq<Draw>, bag: Draw)
    ensures (forall k :: 0 <= k < |draws| ==> Within(draws[k], bag)) <==> Within(MinimumOf(draws), bag)
  {
    var m := MinimumOf(draws);
    if forall k :: 0 <= k < |draws| ==> Within(draws[k], bag) {
      forall c
        ensures m.Count(c) <= bag.Count(c)
      {
        if m.Count(c) != 0 {
          var k :| 0 <= k < |draws| && draws[k].Count(c) == m.Count(c);
          assert Within(draws[k], bag);
        }
      }
    }
    if Within(m, bag) {
      forall k | 0 <= k < |draws|
        ensures Within(draws[k], bag)
      {
      }
    }
  }

  /** A game is possible iff its minimum draw is (`validate` agrees with
      `minimum().validate()`). */
  lemma ValidIffMinimumValid(g: Game)
    ensures g.Valid() <==> g.Minimum().Valid()
  {
    MinimumIsLeast(g.draws, Bag);
  }

  /** More cubes of every colour give at least the power. */
  lemma PowerMonotone(d: Draw, e: Draw)
    requires Within(d, e)
    ensures d.Power() <= e.Power()
  {
    assert d.Count(Blue) <= e.Count(Blue);
    assert d.Count(Red) <= e.Count(Red);
    assert d.Count(Green) <= e.Count(Green);
    assert d.blue * d.red <= e.blue * d.red <= e.blue * e.red;
    assert d.blue * d.red * d.green <= e.blue * e.red * d.green <= e.blue * e.red * e.green;
  }

  /** The minimum draw has the least power of all bags that make the game
      possible. */
  lemma MinimumPowerIsLeast(g: Game, bag: Draw)
    requires forall k :: 0 <= k < |g.draws| ==> Within(g.draws[k], bag)
    ensures g.Minimum().Power() <= bag.Power()
  {
    MinimumIsLeast(g.draws, bag);
    PowerMonotone(g.Minimum(), bag);
  }

  // =====================================================================
  // Lemmas: adding games up
  // =====================================================================

  /** Filtering keeps every possible game as often as it occurs. */
  lemma {:induction false} ValidGamesCounts(games: seq<Game>)
    ensures forall g :: multiset(ValidGames(games))[g] == if g.Valid() then multiset(games)[g] else 0
    decreases |games|
  {
    if |games| > 0 {
      assert games == [games[0]] + games[1..];
      ValidGamesCounts(games[1..]);
    }
  }

  /** The filter keeps exactly the games that validate. */
  lemma ValidGamesMembers(games: seq<Game>)
    ensures forall g :: g in ValidGames(games) <==> g in games && g.Valid()
  {
    ValidGamesCounts(games);
    forall g ensures g in ValidGames(games) <==> g in games && g.Valid() {
      assert g in ValidGames(games) <==> multiset(ValidGames(games))[g] > 0;
      assert g in games <==> multiset(games)[g] > 0;
    }
  }

  lemma ValidGamesCons(g: Game, games: seq<Game>)
    ensures ValidGames([g] + games) == if g.Valid() then [g] + ValidGames(games) else ValidGames(games)
  {
    assert ([g] + games)[1..] == games;
  }

  /** Filtering a concatenation filters each part and concatenates the
      results: the possible games keep their relative order. */
  lemma {:induction false} ValidGamesAppend(a: seq<Game>, b: seq<Game>)
    ensures ValidGames(a + b) == ValidGames(a) + ValidGames(b)
    decreases |a|
  {
    if |a| == 0 {
      assert a + b == b;
    } else {
      var h, t := a[0], a[1..];
      var head := if h.Valid() then [h] else [];
      assert ValidGames(a + b) == head + ValidGames(t + b) by {
        assert a + b == [h] + (t + b);
        ValidGamesCons(h, t + b);
      }
      assert ValidGames(a) == head + ValidGames(t) by {
        assert a == [h] + t;
        ValidGamesCons(h, t);
      }
      ValidGamesAppend(t, b);
      assert head + (ValidGames(t) + ValidGames(b)) == (head + ValidGames(t)) + ValidGames(b);
    }
  }

  /** Summing the ids of the filtered games is summing the ids of the
      possible ones. */
  lemma {:induction false} ValidGamesIdSum(games: seq<Game>)
    ensures IdSum(ValidGames(games)) == ValidIdSum(games)
    decreases |games|
  {
    if |games| > 0 {
      ValidGamesIdSum(games[1..]);
      var rest := ValidGames(games[1..]);
      if games[0].Valid() {
        assert ([games[0]] + rest)[1..] == rest;
      }
    }
  }

  // =====================================================================
  // Lemmas: parsing
  // =====================================================================

  /** The loop of `Draw::from_input` succeeds iff every part naming a
      colour has a readable count. */
  lemma {:induction false} FromPartsSucceeds(parts: seq<string>, draw: Draw)
    ensures FromParts(parts, draw).Ok? <==>
              forall k :: 0 <= k < |parts| && ColourOf(parts[k]).Some? ==> ParseInner(parts[k]).Ok?
    decreases |parts|
  {
    if |parts| > 0 {
      var tail := parts[1..];
      ReadableParts(parts);
      match ColourOf(parts[0])
      case None =>
        FromPartsSucceeds(tail, draw);
      case Some(c0) =>
        if ParseInner(parts[0]).Ok? {
          FromPartsSucceeds(tail, draw.With(c0, ParseInner(parts[0]).value));
        }
    }
  }

  /** Every part naming a colour has a readable count exactly when the
      first one does (if it names a colour) and all later ones do. */
  lemma ReadableParts(parts: seq<string>)
    requires |parts| > 0
    ensures (forall k :: 0 <= k < |parts| && ColourOf(parts[k]).Some? ==> ParseInner(parts[k]).Ok?) <==>
              (ColourOf(parts[0]).Some? ==> ParseInner(parts[0]).Ok?) &&
              (forall k :: 0 <= k < |parts[1..]| && ColourOf(parts[1..][k]).Some? ==> ParseInner(parts[1..][k]).Ok?)
  {
    assert forall k :: 0 < k < |parts| ==> parts[k] == parts[1..][k - 1];
  }

  /** Each colour ends up with the count of the last part naming it. */
  lemma {:induction false} FromPartsLastWins(parts: seq<string>, draw: Draw, c: Colour, k: int)
    requires LastNaming(parts, c, k)
    ensures FromParts(parts, draw).Ok? ==> ParseInner(parts[k]) == Ok(FromParts(parts, draw).value.Count(c))
    decreases |parts|
  {
    var tail := parts[1..];
    match ColourOf(parts[0])
    case None =>
      LastNamingLater(parts, c, k);
      FromPartsLastWins(tail, draw, c, k - 1);
    case Some(c0) =>
      if ParseInner(parts[0]).Ok? {
        var next := draw.With(c0, ParseInner(parts[0]).value);
        assert FromParts(parts, draw) == FromParts(tail, next);
        if k == 0 {
          LastNamingFirst(parts, c);
          FromPartsKeeps(tail, next, c);
        } else {
          LastNamingLater(parts, c, k);
          FromPartsLastWins(tail, next, c, k - 1);
        }
      }
  }

  /** The last part naming `c`, when it is not the first part, is the last
      one in the remaining parts. */
  lemma LastNamingLater(parts: seq<string>, c: Colour, k: int)
    requires LastNaming(parts, c, k) && (k > 0 || ColourOf(parts[0]) != Some(c))
    ensures LastNaming(parts[1..], c, k - 1)
  {
    assert forall j :: 0 <= j < |parts[1..]| ==> parts[1..][j] == parts[j + 1];
  }

  /** When the first part is the last one naming `c`, no later part names it. */
  lemma LastNamingFirst(parts: seq<string>, c: Colour)
    requires LastNaming(parts, c, 0)
    ensures NoneNaming(parts[1..], c)
  {
    assert forall j :: 0 <= j < |parts[1..]| ==> parts[1..][j] == parts[j + 1];
  }

  /** A colour that no part names keeps the count it started with. */
  lemma {:induction false} FromPartsKeeps(parts: seq<string>, draw: Draw, c: Colour)
    requires NoneNaming(parts, c)
    ensures FromParts(parts, draw).Ok? ==> FromParts(parts, draw).value.Count(c) == draw.Count(c)
    decreases |parts|
  {
    if |parts| > 0 {
      var tail := parts[1..];
      assert NoneNaming(tail, c);
      match ColourOf(parts[0])
      case None =>
        FromPartsKeeps(tail, draw, c);
      case Some(c0) =>
        if ParseInner(parts[0]).Ok? {
          FromPartsKeeps(tail, draw.With(c0, ParseInner(parts[0]).value), c);
        }
    }
  }

  /** `Draw::from_input` succeeds iff every comma-separated part that names
      a colour has a readable count. */
  lemma FromInputSucceeds(text: string, parts: seq<string>)
    requires parts == Split(text, ',')
    ensures FromInput(text).Ok? <==>
              forall k :: 0 <= k < |parts| && ColourOf(parts[k]).Some? ==> ParseInner(parts[k]).Ok?
  {
    FromPartsSucceeds(parts, NoCubes);
  }

  /** Each colour of a draw holds the count of the last part naming it. */
  lemma FromInputLastWins(text: string, parts: seq<string>, c: Colour, k: int)
    requires parts == Split(text, ',') && LastNaming(parts, c, k)
    ensures FromInput(text).Ok? ==> ParseInner(parts[k]) == Ok(FromInput(text).value.Count(c))
  {
    FromPartsLastWins(parts, NoCubes, c, k);
  }

  /** A colour that no part of a draw names is 0. */
  lemma FromInputUnnamedIsZero(text: string, parts: seq<string>, c: Colour)
    requires parts == Split(text, ',') && NoneNaming(parts, c)
    ensures FromInput(text).Ok? ==> FromInput(text).value.Count(c) == 0
  {
    FromPartsKeeps(parts, NoCubes, c);
  }

  /** The pieces `Game::from_line` reads the id from: the text before the
      first colon, and its last space-separated word. */
  lemma HeaderPieces(line: string, h: string, w: string)
    requires LeadingPiece(line, ':', h) && TrailingPiece(h, ' ', w)
    ensures Split(line, ':')[0] == h
    ensures Split(h, ' ')[|Split(h, ' ')| - 1] == w
  {
    FirstPieceIs(line, ':', h);
    LastPieceIs(h, ' ', w);
  }

  /** The piece `Game::from_line` reads the draws from: the text between
      the first and the second colon. */
  lemma BodyPiece(line: string, h: string, seg: string)
    requires LeadingPiece(line, ':', h) && |h| < |line|
    requires LeadingPiece(line[|h| + 1..], ':', seg)
    ensures |Split(line, ':')| > 1 && Split(line, ':')[1] == seg
  {
    var rest := line[|h| + 1..];
    assert line == h + [':'] + rest;
    SplitAfterPiece(h, ':', rest);
    FirstPieceIs(rest, ':', seg);
  }

  /** The id is the last word before the first colon: a line whose id does
      not parse fails, and without a colon a line has no draws. */
  lemma FromLineHeader(line: string, h: string, w: string)
    requires LeadingPiece(line, ':', h) && TrailingPiece(h, ' ', w)
    ensures FromLine(line).Ok? ==> ParseNat(w) == Ok(FromLine(line).value.id)
    ensures ParseNat(w).Failure? ==> FromLine(line).Failure?
    ensures ':' !in line ==> (FromLine(line).Ok? <==> ParseNat(w).Ok?)
    ensures ':' !in line && FromLine(line).Ok? ==> FromLine(line).value.draws == []
  {
    assert IdOf(Split(line, ':')[0]) == ParseNat(w) by {
      HeaderPieces(line, h, w);
    }
    if ':' !in line {
      SplitWithoutSeparator(line, ':');
    }
  }

  /** The draws are read from the text between the first and the second
      colon: one per `;`-separated piece, in order, and the line fails if
      any of them does. */
  lemma FromLineDraws(line: string, h: string, seg: string)
    requires LeadingPiece(line, ':', h) && |h| < |line|
    requires LeadingPiece(line[|h| + 1..], ':', seg)
    ensures DrawsOf(Split(seg, ';')).Failure? ==> FromLine(line).Failure?
    ensures FromLine(line).Ok? ==> |FromLine(line).value.draws| == multiset(seg)[';'] + 1
    ensures FromLine(line).Ok? ==> FromLine(line).value.draws == DrawsOf(Split(seg, ';')).value
  {
    BodyPiece(line, h, seg);
    SplitCount(seg, ';');
  }

  /** Conversely, a line with a colon whose id word and draw pieces all
      parse yields the game with that id and those draws. */
  lemma FromLineSucceeds(line: string, h: string, w: string, seg: string)
    requires LeadingPiece(line, ':', h) && |h| < |line| && TrailingPiece(h, ' ', w)
    requires LeadingPiece(line[|h| + 1..], ':', seg)
    requires ParseNat(w).Ok? && DrawsOf(Split(seg, ';')).Ok?
    ensures FromLine(line) == Ok(Game(ParseNat(w).value, DrawsOf(Split(seg, ';')).value))
  {
    LinePieces(line, h, w, seg);
    FromLineOfPieces(line, Split(line, ':'), ParseNat(w).value, DrawsOf(Split(seg, ';')).value);
  }

  /** Where `Game::from_line` finds the id and the draws of a line with a
      colon. */
  lemma LinePieces(line: string, h: string, w: string, seg: string)
    requires LeadingPiece(line, ':', h) && |h| < |line| && TrailingPiece(h, ' ', w)
    requires LeadingPiece(line[|h| + 1..], ':', seg)
    ensures |Split(line, ':')| > 1 && Split(line, ':')[1] == seg
    ensures IdOf(Split(line, ':')[0]) == ParseNat(w)
  {
    BodyPiece(line, h, seg);
    HeaderPieces(line, h, w);
  }

  /** `Game::from_line` on a line with a colon, given its pieces. */
  lemma FromLineOfPieces(line: string, segments: seq<string>, id: nat, draws: seq<Draw>)
    requires segments == Split(line, ':') && |segments| > 1
    requires IdOf(segments[0]) == Ok(id) && DrawsOf(Split(segments[1], ';')) == Ok(draws)
    ensures FromLine(line) == Ok(Game(id, draws))
  {
  }

  // =====================================================================
  // Writing records back: the partner of the parser
  // =====================================================================

  /** `" <n> <name>"`, one part of a draw as records write it. */
  function ShowPart(n: nat, name: string): string {
    [' '] + ShowNat(n) + [' '] + name
  }

  /** A draw written with every colour, e.g. `" 3 blue, 4 red, 0 green"`. */
  function ShowDraw(d: Draw): string {
    Join([ShowPart(d.blue, "blue"), ShowPart(d.red, "red"), ShowPart(d.green, "green")], ',')
  }

  function ShowDraws(draws: seq<Draw>): (r: seq<string>)
    ensures |r| == |draws|
    ensures forall k :: 0 <= k < |draws| ==> r[k] == ShowDraw(draws[k])
  {
    seq(|draws|, k requires 0 <= k < |draws| => ShowDraw(draws[k]))
  }

  /** A game as a record line, e.g. `"Game 4: 1 blue, 3 red, 6 green; ..."`. */
  function ShowGame(g: Game): string {
    "Game " + ShowNat(g.id) + ":" + Join(ShowDraws(g.draws), ';')
  }

  lemma NumeralAvoids(n: nat, c: char)
    requires !IsDigit(c)
    ensures c !in ShowNat(n)
  {
  }

  lemma ShowPartAvoids(n: nat, name: string, c: char)
    requires !IsDigit(c) && c != ' ' && c !in name
    ensures c !in ShowPart(n, name)
  {
    NumeralAvoids(n, c);
  }

  lemma ShowDrawAvoids(d: Draw, c: char)
    requires c == ':' || c == ';'
    ensures c !in ShowDraw(d)
  {
    ShowPartAvoids(d.blue, "blue", c);
    ShowPartAvoids(d.red, "red", c);
    ShowPartAvoids(d.green, "green", c);
    JoinAvoids([ShowPart(d.blue, "blue"), ShowPart(d.red, "red"), ShowPart(d.green, "green")], ',', c);
  }

  /** The count of a written part reads back. */
  lemma ShowPartParses(n: nat, name: string)
    requires IsColourName(name)
    ensures ParseInner(ShowPart(n, name)) == Ok(n)
  {
    TrimShowPart(n, name);
    NumeralLeads(n, name);
    ParseShowNat(n);
  }

  /** The names the records use for the colours. */
  predicate IsColourName(name: string) {
    name == "blue" || name == "red" || name == "green"
  }

  lemma TrimShowPart(n: nat, name: string)
    requires IsColourName(name)
    ensures Trim(ShowPart(n, name)) == ShowNat(n) + [' '] + name
  {
    var num := ShowNat(n);
    var w := num + [' '] + name;
    assert ShowPart(n, name) == [' '] + w;
    assert w[0] == num[0];
    assert w[|w| - 1] == name[|name| - 1];
    TrimPadded(w);
  }

  lemma NumeralLeads(n: nat, name: string)
    ensures LeadingPiece(ShowNat(n) + [' '] + name, ' ', ShowNat(n))
  {
    var num := ShowNat(n);
    var w := num + [' '] + name;
    NumeralAvoids(n, ' ');
    assert w[..|num|] == num;
  }

  /** Each written part names its own colour. */
  lemma ShowPartColour(n: nat)
    ensures ColourOf(ShowPart(n, "blue")) == Some(Blue)
    ensures ColourOf(ShowPart(n, "red")) == Some(Red)
    ensures ColourOf(ShowPart(n, "green")) == Some(Green)
  {
    ShowBlueColour(n);
    ShowRedColour(n);
    ShowGreenColour(n);
  }

  lemma ShowBlueColour(n: nat)
    ensures ColourOf(ShowPart(n, "blue")) == Some(Blue)
  {
    var b := ShowPart(n, "blue");
    ContainsOccurrence(b, "blue");
    assert OccursAt(b, "blue", |b| - 4);
  }

  /** "red" is checked last, so a red part must contain neither "blue"
      nor "green"; its numeral has no letters. */
  lemma ShowRedColour(n: nat)
    ensures ColourOf(ShowPart(n, "red")) == Some(Red)
  {
    var r := ShowPart(n, "red");
    NumeralAvoids(n, 'b');
    NumeralAvoids(n, 'g');
    NotContainsForeignChar(r, "blue", 'b');
    NotContainsForeignChar(r, "green", 'g');
    ContainsOccurrence(r, "red");
    assert OccursAt(r, "red", |r| - 3);
  }

  lemma ShowGreenColour(n: nat)
    ensures ColourOf(ShowPart(n, "green")) == Some(Green)
  {
    var g := ShowPart(n, "green");
    NumeralAvoids(n, 'b');
    NotContainsForeignChar(g, "blue", 'b');
    ContainsOccurrence(g, "green");
    assert OccursAt(g, "green", |g| - 5);
  }

  /** The three parts of a written draw each name their colour and
      carry a readable count. */
  lemma ShowPartsRead(d: Draw)
    ensures ColourOf(ShowPart(d.blue, "blue")) == Some(Blue) && ParseInner(ShowPart(d.blue, "blue")) == Ok(d.blue)
    ensures ColourOf(ShowPart(d.red, "red")) == Some(Red) && ParseInner(ShowPart(d.red, "red")) == Ok(d.red)
    ensures ColourOf(ShowPart(d.green, "green")) == Some(Green) && ParseInner(ShowPart(d.green, "green")) == Ok(d.green)
  {
    ShowPartColour(d.blue);
    ShowPartColour(d.red);
    ShowPartColour(d.green);
    ShowPartParses(d.blue, "blue");
    ShowPartParses(d.red, "red");
    ShowPartParses(d.green, "green");
  }

  /** A written draw reads back as itself. */
  lemma ShowDrawParses(d: Draw)
    ensures FromInput(ShowDraw(d)) == Ok(d)
  {
    var parts := [ShowPart(d.blue, "blue"), ShowPart(d.red, "red"), ShowPart(d.green, "green")];
    forall k | 0 <= k < 3
      ensures ',' !in parts[k]
    {
      ShowPartAvoids(d.blue, "blue", ',');
      ShowPartAvoids(d.red, "red", ',');
      ShowPartAvoids(d.green, "green", ',');
    }
    SplitJoin(parts, ',');
    ShowPartsRead(d);
    var d1 := NoCubes.With(Blue, d.blue);
    var d2 := d1.With(Red, d.red);
    assert FromParts(parts[2..], d2) == Ok(d);
    assert parts[1..][1..] == parts[2..];
    assert FromParts(parts[1..], d1) == Ok(d);
  }

  /** A written game record (with at least one draw, as every record has)
      reads back as the same game. */
  lemma FromLineShowGame(g: Game)
    requires |g.draws| > 0
    ensures FromLine(ShowGame(g)) == Ok(g)
  {
    var segments := Split(ShowGame(g), ':');
    ShowGameSegments(g);
    assert segments[0] == "Game " + ShowNat(g.id);
    assert segments[1] == Join(ShowDraws(g.draws), ';');
    ShowGameId(g);
    ShowGameDraws(g);
    FromLineOfPieces(ShowGame(g), segments, g.id, g.draws);
  }

  /** A written record has exactly one colon, after its header. */
  lemma ShowGameSegments(g: Game)
    ensures Split(ShowGame(g), ':') == ["Game " + ShowNat(g.id), Join(ShowDraws(g.draws), ';')]
  {
    var shown := ShowDraws(g.draws);
    var body := Join(shown, ';');
    var head := "Game " + ShowNat(g.id);
    forall k | 0 <= k < |shown|
      ensures ':' !in shown[k]
    {
      ShowDrawAvoids(g.draws[k], ':');
    }
    JoinAvoids(shown, ';', ':');
    NumeralAvoids(g.id, ':');
    assert ShowGame(g) == head + [':'] + body;
    SplitAfterPiece(head, ':', body);
    SplitWithoutSeparator(body, ':');
  }

  /** The header of a written record reads back as its id. */
  lemma ShowGameId(g: Game)
    ensures IdOf("Game " + ShowNat(g.id)) == Ok(g.id)
  {
    var num := ShowNat(g.id);
    NumeralAvoids(g.id, ' ');
    assert "Game " + num == "Game" + [' '] + num;
    SplitAfterPiece("Game", ' ', num);
    SplitWithoutSeparator(num, ' ');
    assert Split("Game " + num, ' ') == ["Game", num];
    ParseShowNat(g.id);
  }

  /** The body of a written record reads back as its draws. */
  lemma ShowGameDraws(g: Game)
    requires |g.draws| > 0
    ensures DrawsOf(Split(Join(ShowDraws(g.draws), ';'), ';')) == Ok(g.draws)
  {
    var shown := ShowDraws(g.draws);
    forall k | 0 <= k < |shown|
      ensures ';' !in shown[k]
    {
      ShowDrawAvoids(g.draws[k], ';');
    }
    SplitJoin(shown, ';');
    forall k | 0 <= k < |shown|
      ensures FromInput(shown[k]) == Ok(g.draws[k])
    {
      ShowDrawParses(g.draws[k]);
    }
    assert DrawsOf(shown).value == g.draws;
  }

}

=== FILE: examples.dfy ===
/** The worked examples of both puzzles, stated about the model.  Each
    result follows either by evaluating the model on the literal input or
    from the general lemmas, given where the first and last tokens are.
 */
module Examples {
  import opened Wrappers
  import opened Text
  import opened Day1
  import opened Day2

  // =====================================================================
  // Day 1
  // =====================================================================

  lemma SearchForwardExamples()
    ensures !SearchForward("aone", 0, "one")
    ensures SearchForward("aone", 1, "one")
    ensures !SearchForward("a", 0, "one")
    ensures !SearchForward("aono", 3, "one")
  {
  }

  lemma SearchForwardAfterTwo()
    ensures SearchForward("aaone2", 2, "one")
  {
  }

  lemma IndexFirstDigitExamples()
    ensures IndexFirstDigit("ab1") == Some((2, 1))
    ensures IndexFirstDigit("abwthua") == None
  {
  }

  lemma IndexLastDigitExamples()
    ensures IndexLastDigit("kkone2ee") == Some((5, 2))
    ensures IndexLastDigit("abcone1tht").Some? && IndexLastDigit("abcone1tht").value.1 == 1
    ensures IndexLastDigit("8abcone1tht").Some? && IndexLastDigit("8abcone1tht").value.1 == 1
  {
  }

  /** A scan's result is pinned down by where the first word is. */
  lemma FirstWordFound(line: string, i: int, v: int)
    requires WordAt(line, i, v) && forall j, w :: j < i ==> !WordAt(line, j, w)
    ensures IndexFirstLetter(line) == Some((i, v))
  {
    IndexFirstLetterIsFirstWord(line);
    var (p, u) := IndexFirstLetter(line).value;
    WordAtUnique(line, i, v, u);
  }

  lemma LastWordFound(line: string, i: int, v: int)
    requires WordAt(line, i, v) && forall j, w :: j > i ==> !WordAt(line, j, w)
    ensures IndexLastLetter(line) == Some((i, v))
  {
    IndexLastLetterIsLastWord(line);
    var (p, u) := IndexLastLetter(line).value;
    WordAtUnique(line, i, v, u);
  }

  lemma IndexFirstLetterNone()
    ensures IndexFirstLetter("aono") == None
  {
    NoWordInAono();
    IndexFirstLetterIsFirstWord("aono");
  }

  lemma NoWordInAono()
    ensures forall j, w :: !WordAt("aono", j, w)
  {
    var s := "aono";
    forall j, w
      ensures !WordAt(s, j, w)
    {
      if 1 <= w <= 9 && 0 <= j && j + WordLen(w) <= |s| {
        WordLenBounds(w);
        var t := s[j..j + WordLen(w)];
        assert t[0] == s[j] && t[1] == s[j + 1] && t[2] == s[j + 2];
      }
    }
  }

  lemma IndexFirstLetterAfterOne()
    ensures IndexFirstLetter("aone") == Some((1, 1))
  {
    var s := "aone";
    assert s[1..4] == "one";
    forall j, w | j < 1
      ensures !WordAt(s, j, w)
    {
      if 1 <= w <= 9 && 0 <= j && j + WordLen(w) <= |s| {
        assert s[j..j + WordLen(w)][0] == 'a';
      }
    }
    FirstWordFound(s, 1, 1);
  }

  lemma IndexFirstLetterAfterTwo()
    ensures IndexFirstLetter("aaone2") == Some((2, 1))
  {
    var s := "aaone2";
    assert s[2..5] == "one";
    forall j, w | j < 2
      ensures !WordAt(s, j, w)
    {
      if 1 <= w <= 9 && 0 <= j && j + WordLen(w) <= |s| {
        assert s[j..j + WordLen(w)][0] == 'a';
      }
    }
    FirstWordFound(s, 2, 1);
  }

  lemma IndexLastLetterExample()
    ensures IndexLastLetter("aone") == Some((1, 1))
  {
    var s := "aone";
    assert s[1..4] == "one";
    forall j, w | j > 1
      ensures !WordAt(s, j, w)
    {
      if 1 <= w <= 9 {
        WordLenBounds(w);
      }
    }
    LastWordFound(s, 1, 1);
  }

  lemma IndexLastLetterAfterWord()
    ensures IndexLastLetter("kkone2ee") == Some((2, 1))
  {
    var s := "kkone2ee";
    assert s[2..5] == "one";
    forall j, w | j > 2
      ensures !WordAt(s, j, w)
    {
      if 1 <= w <= 9 && j + WordLen(w) <= |s| {
        WordLenBounds(w);
        var t := s[j..j + WordLen(w)];
        assert t[0] == s[j] && t[1] == s[j + 1];
      }
    }
    LastWordFound(s, 2, 1);
  }

  lemma IndexLastLetterAtEnd()
    ensures IndexLastLetter("ttttone") == Some((4, 1))
  {
    var s := "ttttone";
    assert s[4..7] == "one";
    forall j, w | j > 4
      ensures !WordAt(s, j, w)
    {
      if 1 <= w <= 9 {
        WordLenBounds(w);
      }
    }
    LastWordFound(s, 4, 1);
  }

  lemma IndexLastLetterOfThree()
    ensures IndexLastLetter("ttttonetwothree4") == Some((10, 3))
  {
    var s := "ttttonetwothree4";
    assert s[10..15] == "three";
    forall j, w | j > 10
      ensures !WordAt(s, j, w)
    {
      if 1 <= w <= 9 && j + WordLen(w) <= |s| {
        WordLenBounds(w);
        var t := s[j..j + WordLen(w)];
        assert t[0] == s[j] && t[1] == s[j + 1];
      }
    }
    LastWordFound(s, 10, 3);
  }

  lemma ParseLineDigitsAtEnds()
    ensures ParseLine("1abc2") == Ok(12)
  {
    var s := "1abc2";
    assert FirstDigitAt(s, 0);
    assert LastDigitAt(s, 4);
    ParseLineOfDigits(s, 0, 4);
  }

  lemma ParseLineDigitsInside()
    ensures ParseLine("pqr3stu8vwx") == Ok(38)
  {
    var s := "pqr3stu8vwx";
    assert FirstDigitAt(s, 3);
    assert LastDigitAt(s, 7);
    ParseLineOfDigits(s, 3, 7);
  }

  lemma WordLenBounds(v: int)
    requires 1 <= v <= 9
    ensures 3 <= WordLen(v) <= 5
  {
  }

  lemma ParseFirstNoToken()
    ensures ParseFirst("abcdef") == Failure
  {
    var s := "abcdef";
    forall j, w
      ensures !TokenAt(s, j, w)
    {
      if 1 <= w <= 9 && 0 <= j && j + WordLen(w) <= |s| {
        WordLenBounds(w);
        var t := s[j..j + WordLen(w)];
        assert t[0] == s[j] && t[1] == s[j + 1] && t[2] == s[j + 2];
      }
    }
    ParseFirstIsFirstToken(s);
  }

  lemma ParseFirstDigitOnly()
    ensures ParseFirst("aaoue2") == Ok(2)
  {
    var s := "aaoue2";
    forall j, w | j < 5
      ensures !TokenAt(s, j, w)
    {
      if 1 <= w <= 9 && 0 <= j && j + WordLen(w) <= |s| {
        WordLenBounds(w);
        var t := s[j..j + WordLen(w)];
        assert t[0] == s[j] && t[1] == s[j + 1] && t[2] == s[j + 2];
      }
    }
    assert IsFirstToken(s, 5, 2);
    ParseFirstIsFirstToken(s);
  }

  lemma ParseFirstWordFirst()
    ensures ParseFirst("aaone2") == Ok(1)
  {
    var s := "aaone2";
    assert s[2..5] == "one";
    forall j, w | j < 2
      ensures !TokenAt(s, j, w)
    {
      if 1 <= w <= 9 && 0 <= j && j + WordLen(w) <= |s| {
        var t := s[j..j + WordLen(w)];
        assert t[0] == 'a';
      }
    }
    assert IsFirstToken(s, 2, 1);
    ParseFirstIsFirstToken(s);
  }

  lemma ParseFirstDigitFirst()
    ensures ParseFirst("tht1three4") == Ok(1)
  {
    var s := "tht1three4";
    forall j, w | j < 3
      ensures !TokenAt(s, j, w)
    {
      if 1 <= w <= 9 && 0 <= j && j + WordLen(w) <= |s| {
        WordLenBounds(w);
        var t := s[j..j + WordLen(w)];
        assert t[0] == s[j] && t[1] == s[j + 1] && t[2] == s[j + 2];
        if w == 3 {
          assert t[2] != Digits[2][2];
        } else if w == 2 {
          assert t[1] != Digits[1][1];
        }
      }
    }
    assert IsFirstToken(s, 3, 1);
    ParseFirstIsFirstToken(s);
  }

  lemma ParseLastDigitLast()
    ensures ParseLast("kkone2ee") == Ok(2)
  {
    var s := "kkone2ee";
    forall j, w | j > 5
      ensures !TokenAt(s, j, w)
    {
      if 1 <= w <= 9 {
        WordLenBounds(w);
      }
    }
    assert IsLastToken(s, 5, 2);
    ParseLastIsLastToken(s);
  }

  lemma TwoOneNine()
    ensures ParseWithDigits("two1nine") == Ok(29)
  {
    var s := "two1nine";
    assert s[0..3] == "two";
    assert IsFirstToken(s, 0, 2);
    assert s[4..8] == "nine";
    forall j, w | j > 4
      ensures !TokenAt(s, j, w)
    {
      if 1 <= w <= 9 && j + WordLen(w) <= |s| {
        WordLenBounds(w);
        assert s[j..j + WordLen(w)] == "ine";
      }
    }
    assert IsLastToken(s, 4, 9);
    ParseWithDigitsOfTokens(s, 0, 2, 4, 9);
  }

  /** Overlapping words: "eight" and "two" share their `t`. */
  lemma EightTwoThree()
    ensures ParseWithDigits("eightwothree") == Ok(83)
  {
    var s := "eightwothree";
    assert s[0..5] == "eight";
    assert IsFirstToken(s, 0, 8);
    assert s[7..12] == "three";
    forall j, w | j > 7
      ensures !TokenAt(s, j, w)
    {
      if 1 <= w <= 9 && j + WordLen(w) <= |s| {
        WordLenBounds(w);
        var t := s[j..j + WordLen(w)];
        assert t[0] == s[j] && t[1] == s[j + 1];
      }
    }
    assert IsLastToken(s, 7, 3);
    ParseWithDigitsOfTokens(s, 0, 8, 7, 3);
  }

  lemma OneTwoThreeInside()
    ensures ParseWithDigits("abcone2threexyz") == Ok(13)
  {
    OneTwoThreeFirst();
    OneTwoThreeLast();
    ParseWithDigitsOfTokens("abcone2threexyz", 3, 1, 7, 3);
  }

  /** "one" is the first token of "abcone2threexyz". */
  lemma OneTwoThreeFirst()
    ensures IsFirstToken("abcone2threexyz", 3, 1)
  {
    var s := "abcone2threexyz";
    assert s[3..6] == "one";
    forall j, w | j < 3
      ensures !TokenAt(s, j, w)
    {
      if 1 <= w <= 9 && 0 <= j && j + WordLen(w) <= |s| {
        var t := s[j..j + WordLen(w)];
        assert t[0] == s[j];
      }
    }
  }

  /** "three" is the last token of "abcone2threexyz". */
  lemma OneTwoThreeLast()
    ensures IsLastToken("abcone2threexyz", 7, 3)
  {
    var s := "abcone2threexyz";
    assert s[7..12] == "three";
    forall j, w | j > 7
      ensures !TokenAt(s, j, w)
    {
      if 1 <= w <= 9 && j + WordLen(w) <= |s| {
        WordLenBounds(w);
        var t := s[j..j + WordLen(w)];
        assert t[0] == s[j] && t[1] == s[j + 1];
      }
    }
  }


  /** Overlapping words: "two" and "one" share their `o`. */
  lemma TwoOneFour()
    ensures ParseWithDigits("xtwone3four") == Ok(24)
  {
    var s := "xtwone3four";
    assert s[1..4] == "two";
    forall j, w | j < 1
      ensures !TokenAt(s, j, w)
    {
      if 1 <= w <= 9 && 0 <= j && j + WordLen(w) <= |s| {
        assert s[j..j + WordLen(w)][0] == 'x';
      }
    }
    assert IsFirstToken(s, 1, 2);
    assert s[7..11] == "four";
    forall j, w | j > 7
      ensures !TokenAt(s, j, w)
    {
      if 1 <= w <= 9 && j + WordLen(w) <= |s| {
        WordLenBounds(w);
        assert s[j..j + WordLen(w)] == "our";
      }
    }
    assert IsLastToken(s, 7, 4);
    ParseWithDigitsOfTokens(s, 1, 2, 7, 4);
  }

  lemma DigitsAroundWords()
    ensures ParseWithDigits("4nineeightseven2") == Ok(42)
  {
    var s := "4nineeightseven2";
    assert IsFirstToken(s, 0, 4);
    forall j, w | j > 15
      ensures !TokenAt(s, j, w)
    {
    }
    assert IsLastToken(s, 15, 2);
    ParseWithDigitsOfTokens(s, 0, 4, 15, 2);
  }

  lemma OneEightFour()
    ensures ParseWithDigits("zoneight234") == Ok(14)
  {
    var s := "zoneight234";
    assert s[1..4] == "one";
    forall j, w | j < 1
      ensures !TokenAt(s, j, w)
    {
      if 1 <= w <= 9 && 0 <= j && j + WordLen(w) <= |s| {
        assert s[j..j + WordLen(w)][0] == 'z';
      }
    }
    assert IsFirstToken(s, 1, 1);
    forall j, w | j > 10
      ensures !TokenAt(s, j, w)
    {
    }
    assert IsLastToken(s, 10, 4);
    ParseWithDigitsOfTokens(s, 1, 1, 10, 4);
  }

  lemma SevenSix()
    ensures ParseWithDigits("7pqrstsixteen") == Ok(76)
  {
    var s := "7pqrstsixteen";
    assert IsFirstToken(s, 0, 7);
    assert s[6..9] == "six";
    forall j, w | j > 6
      ensures !TokenAt(s, j, w)
    {
      if 1 <= w <= 9 && j + WordLen(w) <= |s| {
        WordLenBounds(w);
        var t := s[j..j + WordLen(w)];
        assert t[0] == s[j] && t[1] == s[j + 1];
      }
    }
    assert IsLastToken(s, 6, 6);
    ParseWithDigitsOfTokens(s, 0, 7, 6, 6);
  }

  lemma NineNine()
    ensures ParseWithDigits("9hcj6nine") == Ok(99)
  {
    var s := "9hcj6nine";
    assert IsFirstToken(s, 0, 9);
    assert s[5..9] == "nine";
    forall j, w | j > 5
      ensures !TokenAt(s, j, w)
    {
      if 1 <= w <= 9 && j + WordLen(w) <= |s| {
        WordLenBounds(w);
        assert s[j..j + WordLen(w)] == "ine";
      }
    }
    assert IsLastToken(s, 5, 9);
    ParseWithDigitsOfTokens(s, 0, 9, 5, 9);
  }

  // =====================================================================
  // Day 2
  // =====================================================================

  /** The five sample games of the tests, typed in by hand from their
      record lines. */
  const Sample: seq<Game> := [
    Game(1, [Draw(3, 4, 0), Draw(6, 1, 2), Draw(0, 0, 2)]),
    Game(2, [Draw(1, 0, 2), Draw(4, 1, 3), Draw(1, 0, 1)]),
    Game(3, [Draw(6, 20, 8), Draw(5, 4, 13), Draw(0, 1, 5)]),
    Game(4, [Draw(6, 3, 1), Draw(0, 6, 3), Draw(15, 14, 3)]),
    Game(5, [Draw(1, 6, 3), Draw(2, 1, 2)])
  ]

  /** The first sample game needs at least 4 red, 2 green and 6 blue
      cubes, a power of 48. */
  lemma MinimumPowerExample()
    ensures Sample[0].Minimum() == Draw(6, 4, 2)
    ensures Sample[0].Minimum().Power() == 48
  {
    var ds := Sample[0].draws;
    assert ds[..2][..1][..0] == [];
    assert MinimumOf(ds[..2][..1]) == Draw(3, 4, 0);
    assert ds[..2] == [Draw(3, 4, 0), Draw(6, 1, 2)];
    assert MinimumOf(ds[..2]) == Draw(6, 4, 2);
  }

  /** Game 3 shows 20 red cubes at once, more than the bag holds. */
  lemma GameThreeImpossible()
    ensures !Sample[2].Valid()
  {
  }

  /** Games 1, 2 and 5 are the possible ones. */
  lemma SampleFiltered()
    ensures ValidGames(Sample) == [Sample[0], Sample[1], Sample[4]]
  {
    SampleValidity();
    SampleTailFiltered();
    assert Sample[1..][1..] == Sample[2..];
  }

  /** Of games 3, 4 and 5, only game 5 is possible. */
  lemma SampleTailFiltered()
    ensures ValidGames(Sample[2..]) == [Sample[4]]
  {
    SampleValidity();
    var t := Sample[2..];
    assert t[1..][1..] == [Sample[4]];
    assert ValidGames([Sample[4]]) == [Sample[4]] by {
      assert [Sample[4]][1..] == [];
    }
  }

  /** The ids of the possible games add up to 8, which is what reducing
      them with `+` yields. */
  lemma SampleSum()
    ensures Reduce(ValidGames(Sample)) == Some(Game(8, []))
  {
    SampleFiltered();
    var valid := [Sample[0], Sample[1], Sample[4]];
    assert valid[1..][1..][1..] == [];
    assert IdSum(valid) == 8;
  }

  lemma SampleValidity()
    ensures Sample[0].Valid() && Sample[1].Valid() && Sample[4].Valid()
    ensures !Sample[2].Valid() && !Sample[3].Valid()
  {
  }
}

=== FILE: text.dfy ===
/** The few pieces of Rust's `str`/`char` library that both puzzles rely on,
    restated over `string` (a sequence of characters, one per byte: the
    model only considers ASCII lines).
 */
module Text {
  import opened Wrappers

  // ---------------------------------------------------------------------
  // Digits
  // ---------------------------------------------------------------------

  /** An ASCII decimal digit: exactly the characters that `usize::from_str`
      accepts as the digits of a number. */
  predicate IsDigit(c: char) {
    '0' <= c <= '9'
  }

  function DigitValue(c: char): (v: nat)
    requires IsDigit(c)
    ensures v <= 9
  {
    c as int - '0' as int
  }

  function DigitChar(v: nat): (c: char)
    requires v <= 9
    ensures IsDigit(c) && DigitValue(c) == v
  {
    (v + '0' as int) as char
  }

  predicate AllDigits(s: string) {
    forall k :: 0 <= k < |s| ==> IsDigit(s[k])
  }

  function Pow10(n: nat): (p: nat)
    ensures p >= 1
  {
    if n == 0 then 1 else 10 * Pow10(n - 1)
  }

  /** The number a non-empty digit string denotes, read most significant
      digit first: the reference meaning of a decimal numeral. */
  ghost function DecimalValue(s: string): nat
    requires AllDigits(s)
  {
    if |s| == 0 then 0
    else 10 * DecimalValue(s[..|s| - 1]) + DigitValue(s[|s| - 1])
  }

  /** `s.parse::<usize>()`: a non-empty run of ASCII digits, accumulated
      left to right; anything else fails. */
  function ParseNat(s: string): (r: Result<nat>)
    ensures r.Ok? <==> |s| > 0 && AllDigits(s)
    ensures r.Ok? ==> r.value == DecimalValue(s) && r.value < Pow10(|s|)
  {
    if |s| == 0 then Failure
    else
      var r := AccumulateDigits(s, 0, 0);
      if r.Ok? then DecimalValueBound(s); r else r
  }

  function AccumulateDigits(s: string, i: nat, acc: nat): (r: Result<nat>)
    requires i <= |s| && AllDigits(s[..i]) && acc == DecimalValue(s[..i])
    ensures r.Ok? <==> AllDigits(s)
    ensures r.Ok? ==> r.value == DecimalValue(s)
    decreases |s| - i
  {
    if i == |s| then
      assert s[..i] == s;
      Ok(acc)
    else if !IsDigit(s[i]) then
      Failure
    else
      assert s[..i + 1][..i] == s[..i];
      AccumulateDigits(s, i + 1, 10 * acc + DigitValue(s[i]))
  }

  lemma {:induction false} DecimalValueBound(s: string)
    requires AllDigits(s)
    ensures DecimalValue(s) < Pow10(|s|)
  {
    if |s| > 0 {
      DecimalValueBound(s[..|s| - 1]);
    }
  }

  /** The decimal rendering of `n` (Rust's `to_string` on a `usize`):
      the partner of `ParseNat`. */
  function ShowNat(n: nat): (s: string)
    ensures |s| > 0 && AllDigits(s)
    decreases n
  {
    if n < 10 then [DigitChar(n)] else ShowNat(n / 10) + [DigitChar(n % 10)]
  }

  lemma {:induction false} ParseShowNat(n: nat)
    ensures ParseNat(ShowNat(n)) == Ok(n)
    decreases n
  {
    if n >= 10 {
      ParseShowNat(n / 10);
      var s := ShowNat(n);
      assert s[..|s| - 1] == ShowNat(n / 10);
    }
  }

  // ---------------------------------------------------------------------
  // Reversal
  // ---------------------------------------------------------------------

  /** `s.chars().rev().collect::<String>()`: the character `k` places
      from the front is the one `k` places from the back of `s`. */
  function Reverse(s: string): (r: string)
    ensures |r| == |s|
  {
    seq(|s|, k requires 0 <= k < |s| => s[|s| - 1 - k])
  }

  lemma ReverseAt(s: string, k: int)
    requires 0 <= k < |s|
    ensures Reverse(s)[k] == s[|s| - 1 - k]
  {
  }

  /** Reversing twice gives back the line. */
  lemma ReverseTwice(s: string)
    ensures Reverse(Reverse(s)) == s
  {
    forall k | 0 <= k < |s|
      ensures Reverse(Reverse(s))[k] == s[k]
    {
      ReverseAt(Reverse(s), k);
      ReverseAt(s, |s| - 1 - k);
    }
  }

  /** Character-wise form of `OccursAt`. */
  ghost predicate MatchesAt(s: string, pat: string, i: int) {
    0 <= i && i + |pat| <= |s| && forall k :: 0 <= k < |pat| ==> s[i + k] == pat[k]
  }

  lemma OccursAtMatches(s: string, pat: string, i: int)
    ensures OccursAt(s, pat, i) <==> MatchesAt(s, pat, i)
  {
    if 0 <= i && i + |pat| <= |s| {
      var w := s[i..i + |pat|];
      if MatchesAt(s, pat, i) {
        assert forall k :: 0 <= k < |pat| ==> w[k] == pat[k];
        assert w == pat;
      }
    }
  }

  lemma ReverseMatches(line: string, i: nat, term: string)
    ensures MatchesAt(Reverse(line), Reverse(term), i) <==> MatchesAt(line, term, |line| - i - |term|)
  {
    var rl, rt, n := Reverse(line), Reverse(term), |term|;
    var s := |line| - i - n;
    if MatchesAt(rl, rt, i) {
      forall m | 0 <= m < n
        ensures line[s + m] == term[m]
      {
        var k := n - 1 - m;
        ReverseAt(line, i + k);
        ReverseAt(term, k);
        assert rl[i + k] == rt[k];
      }
    }
    if MatchesAt(line, term, s) {
      forall k | 0 <= k < n
        ensures rl[i + k] == rt[k]
      {
        var m := n - 1 - k;
        ReverseAt(line, i + k);
        ReverseAt(term, k);
        assert line[s + m] == term[m];
      }
    }
  }

  /** The reversed term occurs at `i` of the reversed line exactly when the
      term itself occurs ending `i` characters before the end of `line`. */
  lemma ReverseOccurs(line: string, i: nat, term: string)
    ensures OccursAt(Reverse(line), Reverse(term), i) <==> OccursAt(line, term, |line| - i - |term|)
  {
    OccursAtMatches(Reverse(line), Reverse(term), i);
    OccursAtMatches(line, term, |line| - i - |term|);
    ReverseMatches(line, i, term);
  }

  // ---------------------------------------------------------------------
  // Splitting on one separator character
  // ---------------------------------------------------------------------

  /** Glue `parts` together with `sep` between neighbours. */
  function Join(parts: seq<string>, sep: char): string {
    if |parts| == 0 then ""
    else if |parts| == 1 then parts[0]
    else parts[0] + [sep] + Join(parts[1..], sep)
  }

  /** `s.split(sep)`: the maximal separator-free pieces of `s`, empty ones
      included; there is always at least one. */
  function Split(s: string, sep: char): (parts: seq<string>)
    ensures |parts| >= 1
    ensures forall k :: 0 <= k < |parts| ==> sep !in parts[k]
    ensures Join(parts, sep) == s
    decreases |s|
  {
    if |s| == 0 then [""]
    else
      var rest := Split(s[1..], sep);
      if s[0] == sep then
        assert s == [sep] + s[1..];
        [""] + rest
      else
        var parts := [[s[0]] + rest[0]] + rest[1..];
        assert parts[1..] == rest[1..];
        assert s == [s[0]] + s[1..];
        parts
  }

  lemma {:induction false} SplitWithoutSeparator(s: string, sep: char)
    requires sep !in s
    ensures Split(s, sep) == [s]
    decreases |s|
  {
    if |s| > 0 {
      assert sep !in s[1..];
      SplitWithoutSeparator(s[1..], sep);
      assert [s[0]] + s[1..] == s;
    }
  }

  lemma {:induction false} SplitAfterPiece(a: string, sep: char, b: string)
    requires sep !in a
    ensures Split(a + [sep] + b, sep) == [a] + Split(b, sep)
    decreases |a|
  {
    var s := a + [sep] + b;
    if |a| == 0 {
      assert s[1..] == b;
    } else {
      assert s[1..] == a[1..] + [sep] + b;
      assert sep !in a[1..];
      SplitAfterPiece(a[1..], sep, b);
      assert [a[0]] + a[1..] == a;
    }
  }

  /** Splitting undoes joining: the separator-free pieces are recovered. */
  lemma {:induction false} SplitJoin(parts: seq<string>, sep: char)
    requires |parts| >= 1
    requires forall k :: 0 <= k < |parts| ==> sep !in parts[k]
    ensures Split(Join(parts, sep), sep) == parts
    decreases |parts|
  {
    if |parts| == 1 {
      SplitWithoutSeparator(parts[0], sep);
    } else {
      SplitJoin(parts[1..], sep);
      SplitAfterPiece(parts[0], sep, Join(parts[1..], sep));
      assert [parts[0]] + parts[1..] == parts;
    }
  }

  /** Joining pieces that avoid `c` with a separator other than `c` gives
      a text that avoids `c`. */
  lemma {:induction false} JoinAvoids(parts: seq<string>, sep: char, c: char)
    requires c != sep && forall k :: 0 <= k < |parts| ==> c !in parts[k]
    ensures c !in Join(parts, sep)
    decreases |parts|
  {
    if |parts| > 1 {
      JoinAvoids(parts[1..], sep, c);
    }
  }

  /** `w` is the text of `s` before its first `sep` (all of `s` when there
      is none). */
  ghost predicate LeadingPiece(s: string, sep: char, w: string) {
    |w| <= |s| && w == s[..|w|] && sep !in w && (|w| == |s| || s[|w|] == sep)
  }

  /** `w` is the text of `s` after its last `sep` (all of `s` when there
      is none). */
  ghost predicate TrailingPiece(s: string, sep: char, w: string) {
    |w| <= |s| && w == s[|s| - |w|..] && sep !in w && (|w| == |s| || s[|s| - |w| - 1] == sep)
  }

  lemma LeadingPieceUnique(s: string, sep: char, w1: string, w2: string)
    requires LeadingPiece(s, sep, w1) && LeadingPiece(s, sep, w2)
    ensures w1 == w2
  {
  }

  lemma TrailingPieceUnique(s: string, sep: char, w1: string, w2: string)
    requires TrailingPiece(s, sep, w1) && TrailingPiece(s, sep, w2)
    ensures w1 == w2
  {
  }

  /** The first piece of a split is the text before the first separator. */
  lemma SplitFirstPiece(s: string, sep: char)
    ensures LeadingPiece(s, sep, Split(s, sep)[0])
  {
    var parts := Split(s, sep);
    if |parts| > 1 {
      assert s == parts[0] + [sep] + Join(parts[1..], sep);
    }
  }

  /** The last piece of a split is the text after the last separator. */
  lemma SplitLastPiece(s: string, sep: char)
    ensures TrailingPiece(s, sep, Split(s, sep)[|Split(s, sep)| - 1])
  {
    JoinLastPiece(Split(s, sep), sep);
  }

  lemma {:induction false} JoinLastPiece(parts: seq<string>, sep: char)
    requires |parts| >= 1 && sep !in parts[|parts| - 1]
    ensures TrailingPiece(Join(parts, sep), sep, parts[|parts| - 1])
    decreases |parts|
  {
    if |parts| > 1 {
      var w, rest := parts[|parts| - 1], Join(parts[1..], sep);
      JoinLastPiece(parts[1..], sep);
      var s := parts[0] + [sep] + rest;
      assert s[|s| - |w|..] == rest[|rest| - |w|..];
      if |w| < |rest| {
        assert s[|s| - |w| - 1] == rest[|rest| - |w| - 1];
      }
    }
  }

  /** The first piece of a split is the leading piece. */
  lemma FirstPieceIs(s: string, sep: char, w: string)
    requires LeadingPiece(s, sep, w)
    ensures Split(s, sep)[0] == w
  {
    SplitFirstPiece(s, sep);
    LeadingPieceUnique(s, sep, w, Split(s, sep)[0]);
  }

  /** The last piece of a split is the trailing piece. */
  lemma LastPieceIs(s: string, sep: char, w: string)
    requires TrailingPiece(s, sep, w)
    ensures Split(s, sep)[|Split(s, sep)| - 1] == w
  {
    SplitLastPiece(s, sep);
    TrailingPieceUnique(s, sep, w, Split(s, sep)[|Split(s, sep)| - 1]);
  }

  /** Splitting yields one more piece than there are separators. */
  lemma {:induction false} SplitCount(s: string, sep: char)
    ensures |Split(s, sep)| == multiset(s)[sep] + 1
    decreases |s|
  {
    if |s| > 0 {
      SplitCount(s[1..], sep);
      assert |Split(s, sep)| == |Split(s[1..], sep)| + if s[0] == sep then 1 else 0;
      assert multiset(s) == multiset{s[0]} + multiset(s[1..]) by {
        assert s == [s[0]] + s[1..];
      }
    }
  }

  // ---------------------------------------------------------------------
  // Trimming
  // ---------------------------------------------------------------------

  /** `char::is_whitespace`: the Unicode White_Space property. */
  predicate IsWhitespace(c: char) {
    || '\t' <= c <= '\r'
    || c == ' '
    || c == '\U{85}'
    || c == '\U{A0}'
    || c == '\U{1680}'
    || '\U{2000}' <= c <= '\U{200A}'
    || c == '\U{2028}'
    || c == '\U{2029}'
    || c == '\U{202F}'
    || c == '\U{205F}'
    || c == '\U{3000}'
  }

  function TrimStart(s: string): (t: string)
    ensures |t| <= |s| && t == s[|s| - |t|..]
    ensures forall k :: 0 <= k < |s| - |t| ==> IsWhitespace(s[k])
    ensures |t| > 0 ==> !IsWhitespace(t[0])
  {
    if |s| > 0 && IsWhitespace(s[0]) then TrimStart(s[1..]) else s
  }

  function TrimEnd(s: string): (t: string)
    ensures |t| <= |s| && t == s[..|t|]
    ensures forall k :: |t| <= k < |s| ==> IsWhitespace(s[k])
    ensures |t| > 0 ==> !IsWhitespace(t[|t| - 1])
  {
    if |s| > 0 && IsWhitespace(s[|s| - 1]) then TrimEnd(s[..|s| - 1]) else s
  }

  /** `t` is the slice `s[a..a + |t|]` and everything of `s` outside it is
      whitespace. */
  ghost predicate TrimmedAt(s: string, t: string, a: int) {
    && 0 <= a && a + |t| <= |s| && t == s[a..a + |t|]
    && (forall k :: 0 <= k < a ==> IsWhitespace(s[k]))
    && (forall k :: a + |t| <= k < |s| ==> IsWhitespace(s[k]))
  }

  /** `str::trim`: the slice left after removing leading and trailing
      whitespace. */
  function Trim(s: string): (t: string)
    ensures exists a :: TrimmedAt(s, t, a)
    ensures |t| > 0 ==> !IsWhitespace(t[0]) && !IsWhitespace(t[|t| - 1])
  {
    var u := TrimStart(s);
    var t := TrimEnd(u);
    var a := |s| - |u|;
    assert TrimmedAt(s, t, a);
    t
  }

  /** Trimming a word preceded by one space leaves the word. */
  lemma TrimPadded(w: string)
    requires |w| > 0 && !IsWhitespace(w[0]) && !IsWhitespace(w[|w| - 1])
    ensures Trim([' '] + w) == w
  {
    assert ([' '] + w)[1..] == w;
  }

  // ---------------------------------------------------------------------
  // Substring search
  // ---------------------------------------------------------------------

  /** `pat` occurs in `s` starting at index `i`. */
  ghost predicate OccursAt(s: string, pat: string, i: int) {
    0 <= i && i + |pat| <= |s| && s[i..i + |pat|] == pat
  }

  /** `s.contains(pat)`, scanning start positions left to right. */
  predicate Contains(s: string, pat: string)
    decreases |s|
  {
    |pat| <= |s| && (s[..|pat|] == pat || Contains(s[1..], pat))
  }

  lemma {:induction false} ContainsOccurrence(s: string, pat: string)
    ensures Contains(s, pat) <==> exists i :: OccursAt(s, pat, i)
    decreases |s|
  {
    if |pat| <= |s| && s[..|pat|] != pat {
      ContainsOccurrence(s[1..], pat);
      if exists i :: OccursAt(s, pat, i) {
        var i :| OccursAt(s, pat, i);
        assert i > 0;
        assert s[1..][i - 1..i - 1 + |pat|] == s[i..i + |pat|];
        assert OccursAt(s[1..], pat, i - 1);
      }
      if Contains(s[1..], pat) {
        var i :| OccursAt(s[1..], pat, i);
        assert s[1..][i..i + |pat|] == s[i + 1..i + 1 + |pat|];
        assert OccursAt(s, pat, i + 1);
      }
    } else if |pat| <= |s| {
      assert OccursAt(s, pat, 0);
    }
  }

  /** A pattern one of whose characters never appears in `s` does not occur
      in `s`. */
  lemma NotContainsForeignChar(s: string, pat: string, c: char)
    requires c in pat && c !in s
    ensures !Contains(s, pat)
  {
    ContainsOccurrence(s, pat);
  }
}

=== FILE: wrappers.dfy ===
/** Failure-compatible result types shared by both puzzles.

    The source reports every failure through `anyhow::Result` (whose message
    is irrelevant here) or through `Option`; both become a value-carrying
    datatype with a single failure case, usable with `:-`.
 */
module Wrappers {

  /** `Some`/`None`, as in Rust's `Option`. */
  datatype Option<+T> = None | Some(value: T) {

    predicate IsFailure() {
      None?
    }

    function PropagateFailure<U>(): Option<U>
      requires None?
    {
      None
    }

    function Extract(): T
      requires Some?
    {
      value
    }

    /** Rust's `unwrap_or`. */
    function GetOr(default: T): T {
      match this
      case Some(v) => v
      case None => default
    }
  }

  /** A success value or a failure that carries no information. */
  datatype Result<+T> = Ok(value: T) | Failure {

    predicate IsFailure() {
      Failure?
    }

    function PropagateFailure<U>(): Result<U>
      requires Failure?
    {
      Failure
    }

    function Extract(): T
      requires Ok?
    {
      value
    }

    /** Rust's `unwrap_or`. */
    function GetOr(default: T): T {
      match this
      case Ok(v) => v
      case Failure => default
    }
  }
}
